=== FILE: README.md ===
# KursChern vector server — a Dafny model of the protocol core

The server is a single-threaded TCP service. Each accepted connection goes
through two phases.

- **Handshake.** The client sends its login. An unknown login gets `ERR`.
  A known login gets a 16-character upper-case hex salt. The client must then
  answer with the hex SHA-224 digest of salt ++ secret, in any letter case, and
  gets `OK` or `ERR`.
- **Vector exchange.** This runs only after `OK`. The client sends a `uint32`
  count. Then, for each vector, it sends a `uint32` size followed by that many
  `int16` elements. The server answers each vector with one `int16`: the sum of
  the squares of its elements, saturated at 32767.

At startup the credential store is read from a `login:secret` file. The port,
the credential file and the log file are taken from the command line.

The model is a set of pure functions over immutable data, one module per part
of the program:

| module | file | models |
|---|---|---|
| `Bytes` | bytes.dfy | bytes as chars 0..255, little-endian `uint32`/`int16` codecs, `std::string(buffer)`, `toupper` |
| `Hex` | hex.dfy | the hex rendering of the digest and of the salt |
| `SumOfSquares` | sum_of_squares.dfy | `Server::calculateSumOfSquares` |
| `Credentials` | credentials.dfy | `Server::loadUserDatabase`: line parsing and the map fold |
| `Channel` | channel.dfy | a connected socket as a list of `recv` chunks and a trace of events |
| `Handshake` | handshake.dfy | `Server::authenticate` |
| `VectorEngine` | vector_engine.dfy | `Server::processVectors` |
| `Connection` | connection.dfy | `Server::handleClient` |
| `Cli` | cli.dfy | the argument handling of `main`, including `std::stoi` |

A socket (`Channel.Conn`) is modelled with four parts.

- **The inbox.** The peer's data as the chunks successive `recv` calls would
  return. A `recv` of at most `max` bytes takes a prefix of the head chunk and
  leaves the rest at the head. An empty chunk, or no chunk, is a `recv` that
  returned 0 or -1.
- **The send caps.** How many bytes each successive `send` accepts. Once the
  list is used up, every send is whole.
- **The trace.** Every successful `recv` and every `send` call, in order.
- **The sent list.** The payloads of the send calls. When it equals the `Out`
  events of the trace at the start, every operation of the model keeps it so,
  and `Connection.HandleClient` ends with it equal.

The SHA-224 digest is a function parameter `H`, and the 64-bit salt value is a
parameter. The model assumes a little-endian host, because the server copies
the wire bytes into its integers without any conversion.

## Model

| member | source | states |
|---|---|---|
| Bytes.U32RoundTrip | server.cpp:268-269 | A `uint32` written as 4 little-endian bytes reads back as itself. |
| Bytes.U32RoundTripBytes | server.cpp:268-269 | Any 4 received bytes are the little-endian encoding of the count they are read as, so no count is lost or doubled. |
| Bytes.I16sRoundTrip | server.cpp:303-311 | The payload bytes are read straight into `int16` storage. Decoding the encoding of a vector gives the vector back. |
| Bytes.I16sRoundTripBytes | server.cpp:303-311 | Every even-length payload is the encoding of the vector it decodes to, so no bytes are lost or invented. |
| Bytes.CString | server.cpp:159-160 | `std::string(buffer)` keeps the bytes before the first NUL. The result has no NUL, and the next byte (if any) is a NUL. |
| Bytes.UpperIsCaseFold | server.cpp:191-194 | A text upper-cases to a text with no lower-case letters iff it spells that text with any of its capitals written in lower case. |
| Bytes.UpperCString | server.cpp:191-192 | Cutting at the first NUL and upper-casing commute, because `toupper` neither makes nor removes a NUL. |
| Bytes.CStringOfNulFree | server.cpp:159-160 | A chunk with no NUL in it is kept whole. |
| Hex.DigestHex | server.cpp:112-122 | A digest of n bytes renders as exactly 2n chars, each an upper-case hex digit. |
| Hex.DigestHexRoundTrip | server.cpp:112-122 | Each byte becomes exactly two zero-padded digits: reading the text back two digits at a time gives the digest. |
| Hex.DigestHexInjective | server.cpp:112-122 | Different digests render as different texts. |
| Hex.DigestHexOfSha224 | server.cpp:112-122 | A 28-byte SHA-224 digest renders as 56 upper-case hex chars. |
| Hex.SaltHex | server.cpp:135-141 | The salt renders as exactly 16 upper-case hex chars. |
| Hex.SaltHexRoundTrip | server.cpp:135-141 | The 16 chars read as a hex number give the 64-bit salt value: zero padding, nothing cut off. |
| Hex.SaltHexInjective | server.cpp:135-141 | Different salt values render as different texts. |
| SumOfSquares.Square | server.cpp:223 | A square taken in 64 bits is at most 2^30, far inside `int64_t`. |
| SumOfSquares.SumSqPrefix | server.cpp:222-229 | The running sum never decreases: the sum over a prefix is at most the sum over the whole vector. |
| SumOfSquares.Narrow16 | server.cpp:235 | `static_cast<int16_t>` is the identity on values in range and agrees with its argument modulo 2^16. |
| SumOfSquares.Accumulate | server.cpp:220-235 | From any point of the loop with running sum ≤ 32767, the early-returning loop yields min(exact sum of squares, 32767). |
| SumOfSquares.SumOfSquaresAsWritten | server.cpp:214-236 | The result is min(Σ v², 32767), 0 for the empty vector, and always in [0, 32767]. |
| SumOfSquares.CalculateSumOfSquares | server.cpp:214-236 | The imperative loop over a 64-bit accumulator computes min(Σ v², 32767) and returns 0 for the empty vector. |
| SumOfSquares.LowerClampUnreachable | server.cpp:230-232 | A running sum is never negative, so the `-32768` return is never taken and is never the result. |
| SumOfSquares.ClampIsExactWhenSmall | server.cpp:227-235 | When the exact sum fits in 32767, no early return fires and the result is the exact sum. |
| SumOfSquares.UnitTestCases | test.cpp:51-110 | The results in the repository's unit tests: 30, 30, 1764, 0, 125, and 32767 for the three overflowing vectors. |
| Credentials.Find | server.cpp:49 | `find(':')` returns the first colon, or none when there is none. |
| Credentials.ParseLineFirstColon | server.cpp:49-53 | With the first colon at pos, a line is accepted iff 0 < pos < len-1. It then splits into the text before and the text after that colon. |
| Credentials.ParseLineNoColon | server.cpp:50 | A line without a colon is rejected. |
| Credentials.ParseLineAccepts | server.cpp:48-56 | login ++ ":" ++ secret is accepted as exactly (login, secret) when the login is non-empty and colon-free and the secret is non-empty. The secret may contain colons. |
| Credentials.ParseLine | server.cpp:48-56 | Every accepted line is a non-empty colon-free login, a colon and a non-empty secret, and those two are what is returned. |
| Credentials.AddLine | server.cpp:53-55 | An accepted line sets `users[login] = secret` and leaves every other entry alone. A rejected line changes nothing. |
| Credentials.LoadUserDatabase | server.cpp:41-45 | A file that cannot be opened leaves the table unchanged, and so does an empty file. |
| Credentials.LoadLines | server.cpp:47-57 | Loading lines only adds or overwrites entries: every login already in the table is still there. |
| Credentials.LoadLinesSnoc | server.cpp:48-57 | The fold is in file order: one more line at the end applies just that line. |
| Credentials.LoadLinesLastWins | server.cpp:48-57 | Each login maps to the secret of its last accepted line, found by scanning the file backwards. Logins with no accepted line keep their previous entry. |
| Credentials.LoadedLogins | server.cpp:48-57 | A login is in the table built from nothing iff some line of the file is accepted with that login. |
| Credentials.MixedFile | test.cpp:234-248 | A file shaped like the test's mixed file loads as exactly the two well-formed entries. Its lines are: no colon, a good line, an empty login, an empty secret, a good line. |
| Credentials.ThreeUserFile | test.cpp:198-210 | Three well-formed lines for distinct logins load as three entries. |
| Channel.Recv | server.cpp:154 | A `recv` returns at most `max` bytes, which are a prefix of the unread stream. The remaining stream is the rest, and nothing is sent. |
| Channel.Send | server.cpp:166 | A `send` accepts at most the payload's length: all of it when unconstrained, otherwise the cap. It adds the payload to the sent list and reads nothing. |
| Handshake.Verify | server.cpp:178-204 | An empty response `recv` is the no-response failure, and nothing is sent. Authentication holds iff the response is non-empty and, upper-cased up to its first NUL, equals the expected digest text; `OK` is then sent. Any other response gets `ERR`. |
| Handshake.Challenge | server.cpp:171-204 | For a known login the salt is sent first. Then at most one of `OK`/`ERR` follows, according to the outcome. |
| Handshake.Authenticate | server.cpp:150-205 | Gives what each outcome sends (none, `ERR`, salt, salt+`ERR`, salt+`OK`). An authenticated login is always in the table. A sent list equal to the trace's `Out` events at the start is still equal at the end. |
| Handshake.NoLoginNothingSent | server.cpp:154-158 | If the first `recv` yields nothing, authentication fails with nothing sent. |
| Handshake.UnknownLoginGetsErr | server.cpp:163-169 | An unknown login gets exactly `ERR`. No salt is sent and the response is never read. |
| Handshake.ShortSaltSendStops | server.cpp:172-176 | A short salt send ends the handshake at once, without reading a response. |
| Handshake.KnownLoginVerdict | server.cpp:172-204 | For a known login the server sends the salt and then reads one response. Success holds iff toupper(response up to its first NUL) equals hex(H(salt ++ secret)). The final send is `OK` on success, `ERR` otherwise, and the exact event sequence is given. |
| Handshake.HonestClientAccepted | server.cpp:178-198 | A client that sends the correct digest, in any letter case, is authenticated and gets salt then `OK`. |
| Handshake.ResponseCaseInsensitive | server.cpp:191-194 | The response, up to its first NUL, upper-cases to the expected digest text iff it is that text with any of its letters `A`..`F` in lower case. |
| Handshake.ExpectedResponse | server.cpp:188-189 | The expected response is 2·n upper-case hex chars for an n-byte digest, and reading it back two digits at a time gives that digest. |
| Handshake.ExpectedResponseShape | server.cpp:189 | With a 28-byte digest the expected response is 56 upper-case hex chars. |
| VectorEngine.ReadPayload | server.cpp:304-318 | The payload loop either yields exactly the requested number of bytes, taken from the front of the stream, or fails. It sends nothing. |
| VectorEngine.ReadPayloadAccumulates | server.cpp:310-318 | When enough data follows in non-empty pieces, however the pieces are cut, the loop gathers exactly the first 2·size bytes. |
| VectorEngine.ReadVector | server.cpp:287-318 | A size read by one 4-byte `recv`, then its elements. A vector read in full has fewer than 2^32 elements, and the stream consumed is exactly its size field followed by its elements. No vector means a size-read or payload-read failure. Nothing is sent. |
| VectorEngine.ServeOne | server.cpp:287-340 | A vector received in full is answered with the 2-byte encoding of its clamped sum of squares. The exchange then stops with a send failure iff that `send` accepted fewer than 2 bytes. A failed read sends nothing. |
| VectorEngine.ServeVectors | server.cpp:284-343 | One result per fully received vector, in order, each `calculateSumOfSquares` of its vector. On every run, early stops included, the encodings of the served vectors are a prefix of what the client sent. When the run completes, or only the last result send fell short, they are exactly the stream consumed. |
| VectorEngine.ProcessVectors | server.cpp:264-346 | A short count read sends nothing. Otherwise the output is exactly the encoded results of the received vectors. There are at most as many vectors as the count announced. Even when the run stops early, the 4 count bytes followed by the vectors' encodings are a prefix of what the client sent. A complete run consumed exactly the count followed by those vectors. |
| VectorEngine.ShortCountStops | server.cpp:268-278 | A count that does not arrive as one 4-byte `recv` ends the exchange with nothing sent. |
| VectorEngine.ShortSizeStops | server.cpp:287-297 | A size field that does not arrive as one 4-byte `recv` ends the exchange with no further vector and nothing sent. |
| VectorEngine.WholeRequestServed | server.cpp:264-346 | A whole well-formed request is served completely: every vector, its result right after its elements and before the next size read, nothing beyond the request read. |
| VectorEngine.PayloadStopsAtClose | server.cpp:310-316 | A `recv` that returns 0 before all elements are in fails the payload read at once. The bytes gathered so far are dropped, and nothing after the close is read. |
| VectorEngine.PayloadCloseStops | server.cpp:303-318 | A vector whose elements are cut short by a closed connection ends the exchange unanswered, with nothing sent. |
| VectorEngine.ShortResultSendStops | server.cpp:328-340 | When a whole vector arrives but its result `send` accepts fewer than 2 bytes, the exchange stops right there: that one vector and result, nothing more read. |
| VectorEngine.PerVectorServed | server.cpp:284-343 | When each vector arrives as its own chunk and every send is whole, the loop completes: all vectors, their results in order, nothing after them read. |
| VectorEngine.PerVectorRequestServed | server.cpp:264-346 | A count chunk followed by one chunk per vector is served completely, with exactly the encoded results sent. |
| VectorEngine.OneVectorExample | server.cpp:328-332 | The request with one vector [1, 2, 3, 4] is answered with the single result 30. |
| Connection.HandleClient | server.cpp:352-368 | The vector exchange runs iff authentication succeeded. A failed session ends with the connection exactly as the handshake left it. A successful one sends salt, `OK`, then the results. A sent list equal to the trace's `Out` events at the start is still equal at the end. |
| Connection.FailedSessionSendsNoResults | server.cpp:355-360 | A client that fails the handshake receives at most the salt and `ERR`, never a result. |
| Connection.HonestSession | server.cpp:352-368 | An honest client with a whole request gets salt, `OK` and one correct result per vector, and nothing after its request is read. |
| Cli.Parse | main.cpp:40-51 | The outcome is Help iff some argument is `-h` or there are no arguments. A started server always has a port in 1..65535. |
| Cli.Options | main.cpp:53-75 | The option loop never yields Help. Started from a valid port, it only starts with a valid port. |
| Cli.OptionsAccepts | main.cpp:54-75 | The loop accepts iff the arguments are option/value pairs with every `-p` value a valid port. The settings are then the last value given for each option, or the one held before. |
| Cli.ParseAccepts | main.cpp:35-75 | main starts the server iff there is no `-h`, at least one argument, only option/value pairs and valid ports. Each option then takes its last value, and a missing option keeps its default. |
| Cli.LastPortValid | main.cpp:55-65 | When every `-p` value is a valid port, the last one is too. |
| Cli.DanglingOption | main.cpp:55-74 | An option as the last argument, with no value after it, is reported as an unknown option. |
| Cli.OnlyConfigGiven | main.cpp:36-38 | With only `-c` given, the port stays 33333 and the log stays `/log/scale.log`. |
| Cli.ExitCode | main.cpp:42-88 | Help exits 0. A rejected command line, or a start that fails, exits 1. A server that starts never exits, because its accept loop has no way out, so main's final `return 0` is never reached. |
| Cli.Stoi | main.cpp:57 | `std::stoi` yields a value only inside the range of `int`; anything else is an exception. |
| Cli.StoiReadsLeadingNumber | main.cpp:57-64 | `std::stoi` skips leading whitespace and takes an optional sign and any non-empty digit run after it, leading zeros allowed. It ignores anything after the digits. It yields the signed value iff that lies in [-2^31, 2^31-1], and raises `out_of_range` otherwise. |
| Cli.StoiOfDecimal | main.cpp:57-64 | A decimal number, with or without a minus sign, reads back as itself exactly when it fits in `int`, down to -2^31. Otherwise it is rejected. |
| Cli.OversizedPortRejected | main.cpp:55-64 | `-p` with a number too large for `int` is reported as an invalid port (the `out_of_range` catch), not wrapped into some other port. |
| Cli.StoiNeedsDigits | main.cpp:56-65 | Text with no digit after the optional sign is rejected, which main reports as an invalid port. |

## Left out

- The SHA-224 computation (server.cpp:88-110) is the parameter `H`. Its `""` results on OpenSSL failures are not modelled, and collision resistance is not provable here.
- Salt generation from `std::random_device`/`std::mt19937_64` (server.cpp:130-134) is a parameter: the 64-bit salt value.
- Logging (`logError`, server.cpp:66-80) and all console output are side effects with no effect on the protocol.
- `Server::start` (server.cpp:374-465) is operating-system plumbing and not part of this model. It covers socket creation, bind, listen, the accept loop, the log-directory fallback and `close`. Whether start fails before the accept loop is a parameter of `Cli.ExitCode`.
- `readExact` (server.cpp:245-257) is never called and is not part of the observable protocol.
- The comment at server.h:98-100 describes a result count sent before a block of results. The code sends one result per vector right after it is read, and the model follows the code.
- A huge vector size can exhaust memory when the element storage is allocated (server.cpp:303-304). The model treats memory as unbounded.
- Hosts with big-endian byte order are out of scope. The model fixes little-endian.
- `Channel.Send`: the trace and the sent list record the payload of each `send` call, not the bytes the call accepted. The server ignores the result of the `ERR` and `OK` sends (server.cpp:166, 196, 201). So after a short `OK` the vector exchange still runs. `Handshake.Authenticate` and `Connection.HandleClient` then list `OK` in the sent list although only part of it left.
- `Channel.Send`: a `send` (flags 0, no `SIGPIPE` handler) to a peer that has reset the connection kills the whole server process. The model treats that case as an ordinary short send and the server carrying on.
- `Bytes.ToUpper`: modelled as C-locale `toupper` on bytes 0..255. `std::toupper` on a negative `char` is undefined behaviour, and this model does not reproduce it.
- `Credentials.LoadUserDatabase`: the file is given as its list of lines. How `std::getline` splits the bytes (a trailing `\r` kept, a last line without `\n`) is not modelled.
- `Cli.Parse`: arguments are Dafny strings. That a C `argv` entry cannot contain a NUL is not modelled.

## Findings

None.

=== FILE: bytes.dfy ===
/** Octets as the server sees them. A C++ std::string and a socket buffer are
    both sequences of 8-bit chars, so one type serves for text and for wire data.
    Fixed-width integers are subset types of int; their little-endian encodings
    (the server's host byte order) are given with both round trips. */
module Bytes {

  /** One octet: a char whose code fits in 8 bits. */
  type Byte = c: char | c <= 'ÿ' witness '\0'
  type Bytes = seq<Byte>

  datatype Option<T> = None | Some(value: T)

  const Int16Min: int := -0x8000
  const Int16Max: int := 0x7FFF
  type Int16 = x: int | Int16Min <= x <= Int16Max
  type UInt32 = x: int | 0 <= x < 0x1_0000_0000
  type UInt64 = x: int | 0 <= x < 0x1_0000_0000_0000_0000

  function Min(a: int, b: int): int
  {
    if a <= b then a else b
  }

  function Val(b: Byte): (n: nat)
    ensures n < 256
  {
    b as int
  }

  function ByteOf(n: int): (b: Byte)
    requires 0 <= n < 256
    ensures Val(b) == n
  {
    n as char
  }

  function Pow256(w: nat): (p: nat)
    ensures p > 0
  {
    if w == 0 then 1 else 0x100 * Pow256(w - 1)
  }

  /** An unsigned integer stored least significant byte first. */
  function DecodeLE(b: Bytes): (n: nat)
    ensures n < Pow256(|b|)
  {
    if |b| == 0 then 0 else Val(b[0]) + 0x100 * DecodeLE(b[1..])
  }

  /** The `w` bytes, least significant first, of an unsigned integer below 256^w. */
  function EncodeLE(n: nat, w: nat): (b: Bytes)
    requires n < Pow256(w)
    ensures |b| == w
  {
    if w == 0 then [] else [ByteOf(n % 0x100)] + EncodeLE(n / 0x100, w - 1)
  }

  lemma {:induction false} LERoundTrip(n: nat, w: nat)
    requires n < Pow256(w)
    ensures DecodeLE(EncodeLE(n, w)) == n
  {
    if w > 0 {
      var b := EncodeLE(n, w);
      assert b[1..] == EncodeLE(n / 0x100, w - 1);
      LERoundTrip(n / 0x100, w - 1);
    }
  }

  lemma {:induction false} LERoundTripBytes(b: Bytes)
    ensures EncodeLE(DecodeLE(b), |b|) == b
  {
    if |b| > 0 {
      var n := DecodeLE(b);
      assert n % 0x100 == Val(b[0]) && n / 0x100 == DecodeLE(b[1..]);
      LERoundTripBytes(b[1..]);
    }
  }

  /** A uint32_t read from four bytes on a little-endian host. */
  function DecodeU32(b: Bytes): UInt32
    requires |b| == 4
  {
    DecodeLE(b)
  }

  /** The four bytes a little-endian client sends for a uint32_t. */
  function EncodeU32(n: UInt32): (b: Bytes)
    ensures |b| == 4
  {
    EncodeLE(n, 4)
  }

  lemma U32RoundTrip(n: UInt32)
    ensures DecodeU32(EncodeU32(n)) == n
  {
    LERoundTrip(n, 4);
  }

  lemma U32RoundTripBytes(b: Bytes)
    requires |b| == 4
    ensures EncodeU32(DecodeU32(b)) == b
  {
    LERoundTripBytes(b);
  }

  /** An int16_t read from two bytes (low byte first), two's complement. */
  function DecodeI16(lo: Byte, hi: Byte): Int16
  {
    var u := Val(lo) + 0x100 * Val(hi);
    if u >= 0x8000 then u - 0x1_0000 else u
  }

  /** The two bytes an int16_t occupies in memory on a little-endian host. */
  function EncodeI16(x: Int16): (b: Bytes)
    ensures |b| == 2
  {
    var u := if x < 0 then x + 0x1_0000 else x;
    [ByteOf(u % 0x100), ByteOf(u / 0x100)]
  }

  lemma I16RoundTrip(x: Int16)
    ensures DecodeI16(EncodeI16(x)[0], EncodeI16(x)[1]) == x
  {
  }

  lemma I16RoundTripBytes(lo: Byte, hi: Byte)
    ensures EncodeI16(DecodeI16(lo, hi)) == [lo, hi]
  {
  }

  /** A byte buffer reinterpreted as an array of int16_t (vector.data() in the server). */
  function DecodeI16s(b: Bytes): (v: seq<Int16>)
    requires |b| % 2 == 0
    ensures |v| * 2 == |b|
    ensures forall i :: 0 <= i < |v| ==> v[i] == DecodeI16(b[2 * i], b[2 * i + 1])
  {
    if |b| == 0 then [] else [DecodeI16(b[0], b[1])] + DecodeI16s(b[2..])
  }

  /** The bytes a little-endian client sends for a vector of int16_t. */
  function EncodeI16s(v: seq<Int16>): (b: Bytes)
    ensures |b| == 2 * |v|
  {
    if |v| == 0 then [] else EncodeI16(v[0]) + EncodeI16s(v[1..])
  }

  lemma {:induction false} I16sRoundTrip(v: seq<Int16>)
    ensures DecodeI16s(EncodeI16s(v)) == v
  {
    if |v| > 0 {
      var b := EncodeI16s(v);
      assert b[2..] == EncodeI16s(v[1..]);
      I16RoundTrip(v[0]);
      I16sRoundTrip(v[1..]);
    }
  }

  lemma {:induction false} I16sRoundTripBytes(b: Bytes)
    requires |b| % 2 == 0
    ensures EncodeI16s(DecodeI16s(b)) == b
  {
    if |b| > 0 {
      var v := DecodeI16s(b);
      assert v[1..] == DecodeI16s(b[2..]);
      I16RoundTripBytes(b[0], b[1]);
      I16sRoundTripBytes(b[2..]);
      assert b == [b[0], b[1]] + b[2..];
    }
  }

  /** What std::string(buffer) keeps of a NUL-terminated buffer: everything
      before the first NUL byte, or all of it when there is none. */
  function CString(b: Bytes): (s: Bytes)
    ensures s <= b
    ensures '\0' !in s
    ensures |s| < |b| ==> b[|s|] == '\0'
  {
    if |b| == 0 || b[0] == '\0' then [] else [b[0]] + CString(b[1..])
  }

  lemma {:induction false} CStringOfNulFree(b: Bytes)
    requires '\0' !in b
    ensures CString(b) == b
  {
    if |b| > 0 {
      assert '\0' !in b[1..];
      CStringOfNulFree(b[1..]);
    }
  }

  /** std::toupper in the C locale: only 'a'..'z' change. */
  function ToUpper(c: Byte): (u: Byte)
    ensures 'a' <= c <= 'z' ==> u as int == c as int - 32
    ensures !('a' <= c <= 'z') ==> u == c
  {
    if 'a' <= c <= 'z' then ((c as int) - 32) as char else c
  }

  /** The in-place `for (auto& c : s) c = std::toupper(c)` loop. */
  function Upper(s: Bytes): (u: Bytes)
    ensures |u| == |s|
    ensures forall i :: 0 <= i < |s| ==> u[i] == ToUpper(s[i])
  {
    seq(|s|, i requires 0 <= i < |s| => ToUpper(s[i]))
  }

  lemma UpperAppend(a: Bytes, b: Bytes)
    ensures Upper(a + b) == Upper(a) + Upper(b)
  {
  }

  /** `x` spells `e` up to letter case: same length, and each byte is `e`'s
      byte or, where `e` has a capital letter, its lower-case form. */
  predicate CaseVariant(x: Bytes, e: Bytes)
  {
    |x| == |e| &&
    forall i :: 0 <= i < |x| ==> x[i] == e[i] || ('A' <= e[i] <= 'Z' && x[i] as int == e[i] as int + 32)
  }

  /** Upper-casing is case folding: a text upper-cases to a text without
      lower-case letters exactly when it spells that text in some mix of cases. */
  lemma UpperIsCaseFold(x: Bytes, e: Bytes)
    requires forall i :: 0 <= i < |e| ==> !('a' <= e[i] <= 'z')
    ensures Upper(x) == e <==> CaseVariant(x, e)
  {
    if CaseVariant(x, e) {
      forall i | 0 <= i < |x|
        ensures Upper(x)[i] == e[i]
      {
        assert x[i] == e[i] || 'a' <= x[i] <= 'z';
      }
    }
  }

  /** Upper-casing never makes or removes a NUL, so it does not matter whether
      the text is cut at its first NUL before or after upper-casing. */
  lemma {:induction false} UpperCString(s: Bytes)
    ensures CString(Upper(s)) == Upper(CString(s))
  {
    if |s| > 0 && s[0] != '\0' {
      assert Upper(s)[1..] == Upper(s[1..]);
      UpperCString(s[1..]);
    }
  }
}

=== FILE: channel.dfy ===
/** A connected socket, seen from the server. The peer's data is the list of
    chunks successive recv calls return; a recv asking for fewer bytes than the
    head chunk holds takes a prefix and leaves the rest for the next call. An
    empty chunk, or no chunk at all, is a recv that returned 0 or -1. Each send
    call accepts up to the next entry of `sendCaps` bytes (the whole payload once
    the list is used up). The trace records, in order, every successful recv (the
    bytes received) and every send call (the payload passed to it); `sent` lists
    the payloads alone, and stays equal to the Out events of the trace. */
module Channel {
  import opened Bytes

  datatype Event = In(data: Bytes) | Out(data: Bytes)

  datatype Conn = Conn(inbox: seq<Bytes>, sendCaps: seq<nat>, trace: seq<Event>, sent: seq<Bytes>)

  datatype Received = Received(data: Bytes, conn: Conn)

  datatype Sent = Sent(count: nat, conn: Conn)

  /** Every byte the peer has sent and the server has not yet read, in order. */
  function Stream(inbox: seq<Bytes>): Bytes
  {
    if |inbox| == 0 then [] else inbox[0] + Stream(inbox[1..])
  }

  /** The payloads of the send calls in a trace: the reference reading of `sent`. */
  function Outputs(t: seq<Event>): seq<Bytes>
  {
    if |t| == 0 then []
    else Outputs(t[..|t| - 1]) + (if t[|t| - 1].Out? then [t[|t| - 1].data] else [])
  }

  lemma OutputsIn(t: seq<Event>, data: Bytes)
    ensures Outputs(t + [In(data)]) == Outputs(t)
  {
    assert (t + [In(data)])[..|t|] == t;
  }

  lemma OutputsOut(t: seq<Event>, data: Bytes)
    ensures Outputs(t + [Out(data)]) == Outputs(t) + [data]
  {
    assert (t + [Out(data)])[..|t|] == t;
  }

  /** recv(socket, buffer, max, 0). */
  function Recv(c: Conn, max: nat): (r: Received)
    requires max > 0
    ensures |r.data| <= max
    ensures r.data + Stream(r.conn.inbox) == Stream(c.inbox)
    ensures r.data == [] ==> r.conn.trace == c.trace
    ensures r.data != [] ==> r.conn.trace == c.trace + [In(r.data)]
    ensures r.conn.sendCaps == c.sendCaps
    ensures r.conn.sent == c.sent
    ensures c.sent == Outputs(c.trace) ==> r.conn.sent == Outputs(r.conn.trace)
    ensures c.inbox != [] && c.inbox[0] != [] ==> r.data == c.inbox[0][..Min(max, |c.inbox[0]|)]
    ensures c.inbox == [] || c.inbox[0] == [] ==> r.data == []
  {
    if |c.inbox| == 0 then Received([], c)
    else
      var head := c.inbox[0];
      if |head| == 0 then Received([], c.(inbox := c.inbox[1..]))
      else if |head| <= max then
        OutputsIn(c.trace, head);
        Received(head, c.(inbox := c.inbox[1..], trace := c.trace + [In(head)]))
      else
        assert head[..max] + head[max..] == head;
        OutputsIn(c.trace, head[..max]);
        Received(head[..max], c.(inbox := [head[max..]] + c.inbox[1..], trace := c.trace + [In(head[..max])]))
  }

  /** send(socket, payload, |payload|, 0): the number of bytes accepted. */
  function Send(c: Conn, payload: Bytes): (r: Sent)
    ensures r.count <= |payload|
    ensures c.sendCaps == [] ==> r.count == |payload| && r.conn.sendCaps == []
    ensures c.sendCaps != [] ==> r.count == Min(c.sendCaps[0], |payload|)
    ensures r.conn.trace == c.trace + [Out(payload)]
    ensures r.conn.sent == c.sent + [payload]
    ensures c.sent == Outputs(c.trace) ==> r.conn.sent == Outputs(r.conn.trace)
    ensures r.conn.inbox == c.inbox
  {
    OutputsOut(c.trace, payload);
    var after := c.(trace := c.trace + [Out(payload)], sent := c.sent + [payload]);
    if |c.sendCaps| == 0 then Sent(|payload|, after)
    else Sent(Min(c.sendCaps[0], |payload|), after.(sendCaps := c.sendCaps[1..]))
  }

  /** Data at the head of the inbox, as one chunk unless there is none. */
  function Prepend(b: Bytes, rest: seq<Bytes>): seq<Bytes>
  {
    if b == [] then rest else [b] + rest
  }

  /** A recv that fits in the head chunk takes exactly what it asks for. */
  lemma RecvFromHead(c: Conn, b: Bytes, rest: seq<Bytes>, n: nat)
    requires c.inbox == Prepend(b, rest) && 0 < n <= |b|
    ensures Recv(c, n).data == b[..n]
    ensures Recv(c, n).conn == c.(inbox := Prepend(b[n..], rest), trace := c.trace + [In(b[..n])])
  {
    if n == |b| {
      assert b[..n] == b;
    }
  }
}

=== FILE: cli.dfy ===
/** The command line of the server program: -h for help, then -p PORT,
    -c CONFIG_FILE and -l LOG_FILE pairs, each overriding its default; a later
    pair for the same option wins. Arguments are the strings after the program
    name. */
module Cli {
  import opened Bytes

  const DefaultPort: int := 33333
  const DefaultConfig: string := "/scale.conf"
  const DefaultLog: string := "/log/scale.log"

  const IntMin: int := -0x8000_0000
  const IntMax: int := 0x7FFF_FFFF

  datatype Settings = Settings(port: int, config: string, log: string)

  const Defaults: Settings := Settings(DefaultPort, DefaultConfig, DefaultLog)

  /** The two messages main prints before exiting with status 1. The first
      covers both exceptions std::stoi throws (no digits, or a value outside
      int); the second a number outside 1..65535. */
  datatype CliError = InvalidPort(arg: string) | PortOutOfRange(port: int) | UnknownOption(arg: string)

  datatype Command = ShowHelp | Start(settings: Settings) | Reject(error: CliError)

  /** The process exit status, or None when the process never exits. start()
      has no way out of its accept loop, so it returns only when it fails to
      set up the socket (the parameter `startFailed`); a server that did start
      runs until it is killed, and main's closing `return 0` is never reached. */
  function ExitCode(cmd: Command, startFailed: bool): (code: Option<int>)
    ensures code == Some(0) <==> cmd.ShowHelp?
    ensures code == Some(1) <==> cmd.Reject? || (cmd.Start? && startFailed)
    ensures code == None <==> cmd.Start? && !startFailed
  {
    match cmd
    case ShowHelp => Some(0)
    case Start(_) => if startFailed then Some(1) else None
    case Reject(_) => Some(1)
  }

  // ---------------------------------------------------------------------
  // std::stoi (base 10)
  // ---------------------------------------------------------------------

  /** isspace in the C locale. */
  predicate IsSpace(c: char)
  {
    c == ' ' || c == '\t' || c == '\n' || c == '\r' || c as int == 0x0B || c as int == 0x0C
  }

  predicate IsDigit(c: char)
  {
    '0' <= c <= '9'
  }

  /** The number of leading whitespace chars. */
  function SpacePrefix(s: string): (n: nat)
    ensures n <= |s|
    ensures forall i :: 0 <= i < n ==> IsSpace(s[i])
    ensures n < |s| ==> !IsSpace(s[n])
  {
    if |s| == 0 || !IsSpace(s[0]) then 0 else 1 + SpacePrefix(s[1..])
  }

  /** The number of leading decimal digits. */
  function DigitPrefix(s: string): (n: nat)
    ensures n <= |s|
    ensures forall i :: 0 <= i < n ==> IsDigit(s[i])
    ensures n < |s| ==> !IsDigit(s[n])
  {
    if |s| == 0 || !IsDigit(s[0]) then 0 else 1 + DigitPrefix(s[1..])
  }

  function DigitValue(c: char): (d: nat)
    requires IsDigit(c)
    ensures d < 10
  {
    c as int - '0' as int
  }

  /** The value of a digit string, most significant digit first. */
  function DecimalValue(s: string): nat
    requires forall i :: 0 <= i < |s| ==> IsDigit(s[i])
  {
    if |s| == 0 then 0 else 10 * DecimalValue(s[..|s| - 1]) + DigitValue(s[|s| - 1])
  }

  /** std::stoi(s): skip leading whitespace, take an optional sign and the
      longest run of digits after it, ignore the rest. None stands for the
      exceptions: no digits, or a value that does not fit in int. */
  function Stoi(s: string): (r: Option<int>)
    ensures r.Some? ==> IntMin <= r.value <= IntMax
  {
    Signed(s[SpacePrefix(s)..])
  }

  /** The optional sign. */
  function Signed(t: string): (r: Option<int>)
    ensures r.Some? ==> IntMin <= r.value <= IntMax
  {
    if |t| > 0 && t[0] == '-' then Magnitude(t[1..], true)
    else if |t| > 0 && t[0] == '+' then Magnitude(t[1..], false)
    else Magnitude(t, false)
  }

  /** The digits, up to the first char that is not one. */
  function Magnitude(u: string, negative: bool): (r: Option<int>)
    ensures r.Some? ==> IntMin <= r.value <= IntMax
    ensures r.Some? ==> (r.value <= 0 <==> negative || r.value == 0)
  {
    var d := DigitPrefix(u);
    if d == 0 then None
    else
      var m := DecimalValue(u[..d]);
      var n: int := if negative then -(m as int) else m;
      if n < IntMin || n > IntMax then None else Some(n)
  }

  /** The shortest decimal text of a natural number. */
  function Decimal(n: nat): (s: string)
    ensures |s| > 0 && forall i :: 0 <= i < |s| ==> IsDigit(s[i])
  {
    var last := ('0' as int + n % 10) as char;
    if n < 10 then [last] else Decimal(n / 10) + [last]
  }

  lemma {:induction false} DecimalRoundTrip(n: nat)
    ensures DecimalValue(Decimal(n)) == n
  {
    if n >= 10 {
      var s := Decimal(n);
      assert s[..|s| - 1] == Decimal(n / 10);
      DecimalRoundTrip(n / 10);
    }
  }

  /** Leading whitespace is skipped, an optional sign and the digits after it
      are read, and anything after the digits is ignored. The signed value is
      the result when it fits in int; otherwise std::out_of_range (None). */
  lemma StoiReadsLeadingNumber(space: string, sign: string, digits: string, rest: string)
    requires forall i :: 0 <= i < |space| ==> IsSpace(space[i])
    requires sign == [] || sign == ['+'] || sign == ['-']
    requires |digits| > 0 && forall i :: 0 <= i < |digits| ==> IsDigit(digits[i])
    requires rest == [] || !IsDigit(rest[0])
    ensures var m := DecimalValue(digits) as int;
      var n := if sign == ['-'] then -m else m;
      Stoi(space + sign + digits + rest) == (if IntMin <= n <= IntMax then Some(n) else None)
  {
    var u := digits + rest;
    var t := sign + u;
    var k := SpacePrefixOf(space, t);
    Regroup(space, sign, digits, rest);
    assert (space + t)[k..] == t;
    assert Stoi(space + t) == Signed(t);
    SignedOf(sign, u);
    MagnitudeOf(digits, rest, sign == ['-']);
  }

  /** The shortest decimal text of n reads back as n exactly when n fits in
      int, and raises std::out_of_range (None) when it does not; likewise
      with a minus sign in front, down to -2^31. */
  lemma StoiOfDecimal(n: nat)
    ensures Stoi(Decimal(n)) == (if n <= IntMax then Some(n as int) else None)
    ensures Stoi("-" + Decimal(n)) == (if n <= -IntMin then Some(-(n as int)) else None)
  {
    var text := Decimal(n);
    var none: string := [];
    DecimalRoundTrip(n);
    assert none + none + text + none == text;
    StoiReadsLeadingNumber(none, none, text, none);
    NegatedDecimal(n);
  }

  lemma NegatedDecimal(n: nat)
    ensures Stoi("-" + Decimal(n)) == (if n <= -IntMin then Some(-(n as int)) else None)
  {
    var text := Decimal(n);
    var none: string := [];
    var minus: string := ['-'];
    DecimalRoundTrip(n);
    assert none + minus + text + none == "-" + text;
    StoiReadsLeadingNumber(none, minus, text, none);
    var m := DecimalValue(text) as int;
    assert m == n;
    assert IntMin <= -m <= IntMax <==> n <= -IntMin;
  }

  lemma Regroup<T>(a: seq<T>, b: seq<T>, c: seq<T>, d: seq<T>)
    ensures a + b + c + d == a + (b + (c + d))
  {
  }

  lemma SignedOf(sign: string, u: string)
    requires sign == [] || sign == ['+'] || sign == ['-']
    requires |u| > 0 && IsDigit(u[0])
    ensures Signed(sign + u) == Magnitude(u, sign == ['-'])
  {
    if sign != [] {
      assert (sign + u)[1..] == u;
    } else {
      assert sign + u == u;
    }
  }

  lemma MagnitudeOf(digits: string, rest: string, negative: bool)
    requires |digits| > 0 && forall i :: 0 <= i < |digits| ==> IsDigit(digits[i])
    requires rest == [] || !IsDigit(rest[0])
    ensures var m := DecimalValue(digits) as int;
      var n := if negative then -m else m;
      Magnitude(digits + rest, negative) == (if IntMin <= n <= IntMax then Some(n) else None)
  {
    var u := digits + rest;
    var d := DigitPrefixOf(digits, rest);
    assert u[..d] == digits;
    MagnitudeUnfold(u, negative);
  }

  lemma MagnitudeUnfold(u: string, negative: bool)
    requires DigitPrefix(u) > 0
    ensures var m := DecimalValue(u[..DigitPrefix(u)]) as int;
      var n := if negative then -m else m;
      Magnitude(u, negative) == (if IntMin <= n <= IntMax then Some(n) else None)
  {
  }

  lemma {:induction false} SpacePrefixOf(space: string, s: string) returns (k: nat)
    requires forall i :: 0 <= i < |space| ==> IsSpace(space[i])
    requires s == [] || !IsSpace(s[0])
    ensures k == |space| == SpacePrefix(space + s)
  {
    k := |space|;
    if |space| > 0 {
      assert (space + s)[1..] == space[1..] + s;
      var _ := SpacePrefixOf(space[1..], s);
    }
  }

  lemma {:induction false} DigitPrefixOf(digits: string, s: string) returns (k: nat)
    requires forall i :: 0 <= i < |digits| ==> IsDigit(digits[i])
    requires s == [] || !IsDigit(s[0])
    ensures k == |digits| == DigitPrefix(digits + s)
  {
    k := |digits|;
    if |digits| > 0 {
      assert (digits + s)[1..] == digits[1..] + s;
      var _ := DigitPrefixOf(digits[1..], s);
    }
  }

  /** Text without a digit after the optional sign is rejected. */
  lemma StoiNeedsDigits(s: string)
    requires var t := s[SpacePrefix(s)..];
      var u := if |t| > 0 && (t[0] == '+' || t[0] == '-') then t[1..] else t;
      u == [] || !IsDigit(u[0])
    ensures Stoi(s).None?
  {
  }

  // ---------------------------------------------------------------------
  // main's argument loops
  // ---------------------------------------------------------------------

  predicate ValidPort(n: int)
  {
    1 <= n <= 65535
  }

  /** The second loop of main, from the current argument on. */
  function Options(args: seq<string>, s: Settings): (r: Command)
    ensures !r.ShowHelp?
    ensures ValidPort(s.port) && r.Start? ==> ValidPort(r.settings.port)
    decreases |args|
  {
    if |args| == 0 then Start(s)
    else if args[0] == "-p" && |args| > 1 then
      match Stoi(args[1])
      case None => Reject(InvalidPort(args[1]))
      case Some(n) =>
        if n < 1 || n > 65535 then Reject(PortOutOfRange(n))
        else Options(args[2..], s.(port := n))
    else if args[0] == "-c" && |args| > 1 then Options(args[2..], s.(config := args[1]))
    else if args[0] == "-l" && |args| > 1 then Options(args[2..], s.(log := args[1]))
    else Reject(UnknownOption(args[0]))
  }

  /** main up to the construction of the Server: help when asked for anywhere
      or when there are no arguments, otherwise the option loop. */
  function Parse(args: seq<string>): (r: Command)
    ensures r.ShowHelp? <==> "-h" in args || args == []
    ensures r.Start? ==> ValidPort(r.settings.port)
  {
    if "-h" in args then ShowHelp
    else if |args| == 0 then ShowHelp
    else Options(args, Defaults)
  }

  // ---------------------------------------------------------------------
  // The reference reading of an accepted command line
  // ---------------------------------------------------------------------

  predicate IsOption(a: string)
  {
    a == "-p" || a == "-c" || a == "-l"
  }

  /** The arguments are option/value pairs. */
  predicate Paired(args: seq<string>)
  {
    |args| % 2 == 0 && forall j :: 0 <= j < |args| / 2 ==> IsOption(args[2 * j])
  }

  /** Every -p value is a port number. */
  predicate PortsValid(args: seq<string>)
    requires |args| % 2 == 0
  {
    forall j :: 0 <= j < |args| / 2 && args[2 * j] == "-p" ==>
      Stoi(args[2 * j + 1]).Some? && ValidPort(Stoi(args[2 * j + 1]).value)
  }

  /** The value of the last pair for `option`, scanning pairs from the end. */
  function LastValue(args: seq<string>, option: string): Option<string>
    requires |args| % 2 == 0
  {
    if |args| == 0 then None
    else if args[|args| - 2] == option then Some(args[|args| - 1])
    else LastValue(args[..|args| - 2], option)
  }

  /** Looking from the end, a leading pair only matters when no later pair
      sets the same option. */
  lemma {:induction false} LastValueCons(a: string, v: string, rest: seq<string>, option: string)
    requires |rest| % 2 == 0
    ensures LastValue([a, v] + rest, option) ==
      if LastValue(rest, option).Some? then LastValue(rest, option)
      else if a == option then Some(v) else None
    decreases |rest|
  {
    var args := [a, v] + rest;
    if |rest| == 0 {
      assert args == [a, v];
    } else {
      assert args[..|args| - 2] == [a, v] + rest[..|rest| - 2];
      assert args[|args| - 2] == rest[|rest| - 2] && args[|args| - 1] == rest[|rest| - 1];
      LastValueCons(a, v, rest[..|rest| - 2], option);
    }
  }

  /** The settings an accepted command line yields, read off its pairs. */
  function Chosen(args: seq<string>, s: Settings): Settings
    requires |args| % 2 == 0
  {
    Settings(
      match LastValue(args, "-p")
      case Some(text) => (match Stoi(text) case Some(n) => n case None => s.port)
      case None => s.port,
      match LastValue(args, "-c") case Some(c) => c case None => s.config,
      match LastValue(args, "-l") case Some(l) => l case None => s.log)
  }

  lemma PairedCons(a: string, v: string, rest: seq<string>)
    ensures Paired([a, v] + rest) <==> IsOption(a) && Paired(rest)
    ensures |rest| % 2 == 0 ==> (PortsValid([a, v] + rest) <==>
      (a == "-p" ==> Stoi(v).Some? && ValidPort(Stoi(v).value)) && PortsValid(rest))
  {
    var args := [a, v] + rest;
    forall j | 1 <= j < |args| / 2
      ensures args[2 * j] == rest[2 * (j - 1)] && args[2 * j + 1] == rest[2 * (j - 1) + 1]
    {
    }
    if IsOption(a) && Paired(rest) {
      forall j | 0 <= j < |args| / 2
        ensures IsOption(args[2 * j])
      {
        if j > 0 {
          assert args[2 * j] == rest[2 * (j - 1)];
        }
      }
    }
    if Paired(args) {
      forall j | 0 <= j < |rest| / 2
        ensures IsOption(rest[2 * j])
      {
        assert rest[2 * j] == args[2 * (j + 1)];
      }
      assert IsOption(args[2 * 0]);
    }
    if |rest| % 2 == 0 {
      if PortsValid(args) {
        assert args[2 * 0] == a && args[2 * 0 + 1] == v;
        forall j | 0 <= j < |rest| / 2 && rest[2 * j] == "-p"
          ensures Stoi(rest[2 * j + 1]).Some? && ValidPort(Stoi(rest[2 * j + 1]).value)
        {
          assert rest[2 * j] == args[2 * (j + 1)] && rest[2 * j + 1] == args[2 * (j + 1) + 1];
        }
      }
      if (a == "-p" ==> Stoi(v).Some? && ValidPort(Stoi(v).value)) && PortsValid(rest) {
        forall j | 0 <= j < |args| / 2 && args[2 * j] == "-p"
          ensures Stoi(args[2 * j + 1]).Some? && ValidPort(Stoi(args[2 * j + 1]).value)
        {
          if j > 0 {
            assert args[2 * j] == rest[2 * (j - 1)] && args[2 * j + 1] == rest[2 * (j - 1) + 1];
          }
        }
      }
    }
  }

  /** The settings after one option/value pair. */
  function Apply(option: string, value: string, s: Settings): Settings
  {
    if option == "-p" then (match Stoi(value) case Some(n) => s.(port := n) case None => s)
    else if option == "-c" then s.(config := value)
    else if option == "-l" then s.(log := value)
    else s
  }

  /** One pass of the option loop over a leading pair. */
  lemma OptionsStep(a: string, v: string, rest: seq<string>, s: Settings)
    ensures IsOption(a) && (a == "-p" ==> Stoi(v).Some? && ValidPort(Stoi(v).value)) ==>
      Options([a, v] + rest, s) == Options(rest, Apply(a, v, s))
    ensures !(IsOption(a) && (a == "-p" ==> Stoi(v).Some? && ValidPort(Stoi(v).value))) ==>
      Options([a, v] + rest, s).Reject?
  {
    assert ([a, v] + rest)[2..] == rest;
  }

  lemma ChosenCons(a: string, v: string, rest: seq<string>, s: Settings)
    requires |rest| % 2 == 0
    requires a == "-p" ==> Stoi(v).Some?
    requires LastValue(rest, "-p").Some? ==> Stoi(LastValue(rest, "-p").value).Some?
    ensures Chosen([a, v] + rest, s) == Chosen(rest, Apply(a, v, s))
  {
    assert "-p"[1] != "-c"[1] && "-p"[1] != "-l"[1] && "-c"[1] != "-l"[1];
    LastValueCons(a, v, rest, "-p");
    LastValueCons(a, v, rest, "-c");
    LastValueCons(a, v, rest, "-l");
  }

  /** On a command line whose port values are all valid, the last one is too. */
  lemma {:induction false} LastPortValid(args: seq<string>)
    requires |args| % 2 == 0 && PortsValid(args)
    ensures LastValue(args, "-p").Some? ==>
      Stoi(LastValue(args, "-p").value).Some? && ValidPort(Stoi(LastValue(args, "-p").value).value)
    decreases |args|
  {
    if |args| > 0 {
      var j := |args| / 2 - 1;
      assert 2 * j == |args| - 2;
      if args[|args| - 2] != "-p" {
        var init := args[..|args| - 2];
        assert PortsValid(init) by {
          forall k | 0 <= k < |init| / 2 && init[2 * k] == "-p"
            ensures Stoi(init[2 * k + 1]).Some? && ValidPort(Stoi(init[2 * k + 1]).value)
          {
            assert init[2 * k] == args[2 * k] && init[2 * k + 1] == args[2 * k + 1];
          }
        }
        LastPortValid(init);
      }
    }
  }

  /** The option loop accepts exactly the command lines made of option/value
      pairs whose port values are all valid, and then yields, for each option,
      the value of its last pair (or the value it had before the loop). */
  lemma {:induction false} OptionsAccepts(args: seq<string>, s: Settings)
    ensures Options(args, s).Start? <==> Paired(args) && PortsValid(args)
    ensures Options(args, s).Start? ==> Options(args, s).settings == Chosen(args, s)
    decreases |args|
  {
    if |args| == 0 {
      assert Chosen(args, s) == s;
    } else if |args| == 1 {
      assert !Paired(args);
    } else {
      var a, v, rest := args[0], args[1], args[2..];
      assert args == [a, v] + rest;
      PairedCons(a, v, rest);
      OptionsStep(a, v, rest, s);
      if IsOption(a) && (a == "-p" ==> Stoi(v).Some? && ValidPort(Stoi(v).value)) {
        OptionsAccepts(rest, Apply(a, v, s));
        if |rest| % 2 == 0 && PortsValid(rest) {
          LastPortValid(rest);
          ChosenCons(a, v, rest, s);
        }
      }
    }
  }

  /** An option with no value after it is reported as unknown. */
  lemma DanglingOption(args: seq<string>, s: Settings)
    requires |args| == 1
    ensures Options(args, s) == Reject(UnknownOption(args[0]))
  {
  }

  /** The command line main accepts: no -h anywhere, at least one argument,
      option/value pairs, valid ports; then the last value of each option wins
      and a missing option keeps its default. */
  lemma ParseAccepts(args: seq<string>)
    ensures Parse(args).Start? <==> "-h" !in args && args != [] && Paired(args) && PortsValid(args)
    ensures Parse(args).Start? ==> Parse(args).settings == Chosen(args, Defaults)
  {
    OptionsAccepts(args, Defaults);
  }

  /** Setting only the configuration file keeps the default port and log. */
  lemma OnlyConfigGiven(path: string)
    requires path != "-h"
    ensures Parse(["-c", path]) == Start(Settings(DefaultPort, path, DefaultLog))
  {
    assert "-c"[1] != "-h"[1] && "-c"[1] != "-p"[1];
    assert "-h" !in ["-c", path];
    assert ["-c", path][2..] == [];
    var args := ["-c", path];
    assert Parse(args) == Options(args, Defaults);
    assert Options(args, Defaults) == Options([], Defaults.(config := path));
  }

  /** A port number too large for int makes std::stoi throw
      std::out_of_range, which main reports as an invalid port. */
  lemma OversizedPortRejected(n: nat)
    requires n > IntMax
    ensures Parse(["-p", Decimal(n)]) == Reject(InvalidPort(Decimal(n)))
  {
    var text := Decimal(n);
    assert text[0] != "-h"[0];
    assert "-p"[1] != "-h"[1];
    assert "-h" !in ["-p", text];
    StoiOfDecimal(n);
    var args := ["-p", text];
    assert Parse(args) == Options(args, Defaults);
  }
}

=== FILE: connection.dfy ===
/** One client connection: the handshake, then the vector exchange only when
    the handshake succeeded. The socket is closed afterwards in either case. */
module Connection {
  import opened Bytes
  import opened Hex
  import opened Channel
  import opened Credentials
  import opened Handshake
  import opened VectorEngine

  /** How the handshake ended, the vector exchange if it ran, and the
      connection at the moment it is closed. */
  datatype Session = Session(auth: Outcome, engine: Option<EngineResult>, conn: Conn)

  /** Server::handleClient. */
  function HandleClient(users: Users, c: Conn, salt: UInt64, H: Bytes -> Bytes): (s: Session)
    ensures s.engine.Some? <==> s.auth.Authenticated?
    ensures s.auth == Authenticate(users, c, salt, H).outcome
    ensures s.auth.Failed? ==> s.conn == Authenticate(users, c, salt, H).conn
    ensures s.auth.Authenticated? ==>
      && s.auth.login in users
      && s.conn == s.engine.value.conn
      && s.conn.sent == c.sent + [SaltHex(salt), Ok] + EncodeResults(s.engine.value.results)
    ensures c.sent == Outputs(c.trace) ==> s.conn.sent == Outputs(s.conn.trace)
  {
    var a := Authenticate(users, c, salt, H);
    match a.outcome
    case Failed(_) => Session(a.outcome, None, a.conn)
    case Authenticated(_) =>
      var e := ProcessVectors(a.conn);
      Session(a.outcome, Some(e), e.conn)
  }

  /** A client that fails the handshake never gets a result: what the server
      sends it is at most the salt and "ERR". */
  lemma FailedSessionSendsNoResults(users: Users, c: Conn, salt: UInt64, H: Bytes -> Bytes)
    requires HandleClient(users, c, salt, H).auth.Failed?
    ensures var s := HandleClient(users, c, salt, H);
      s.conn.sent == c.sent || s.conn.sent == c.sent + [Err] ||
      s.conn.sent == c.sent + [SaltHex(salt)] || s.conn.sent == c.sent + [SaltHex(salt), Err]
  {
  }

  /** The whole exchange with an honest client whose login, response and
      request each arrive in one piece: it is authenticated and receives the
      salt, "OK" and then one result per vector, each the saturated sum of
      squares of that vector; nothing sent after the request is read. */
  lemma HonestSession(users: Users, c: Conn, salt: UInt64, H: Bytes -> Bytes,
                      login: Bytes, response: Bytes, vs: seq<seq<Int16>>, rest: seq<Bytes>)
    requires 0 < |login| <= RecvLimit && '\0' !in login && login in users
    requires Upper(response) == ExpectedResponse(H, salt, users[login])
    requires 0 < |response| <= RecvLimit && '\0' !in response
    requires Framable(vs) && |vs| < 0x1_0000_0000
    requires c.inbox == [login, response, EncodeRequest(vs)] + rest && c.sendCaps == []
    ensures var s := HandleClient(users, c, salt, H);
      && s.auth == Authenticated(login)
      && s.engine.Some? && s.engine.value.stop == Completed && s.engine.value.vectors == vs
      && s.conn.sent == c.sent + [SaltHex(salt), Ok] + EncodeResults(Sums(vs))
      && s.conn.inbox == rest
  {
    CStringOfNulFree(login);
    CStringOfNulFree(response);
    assert c.inbox == [login, response] + ([EncodeRequest(vs)] + rest);
    KnownLoginVerdict(users, c, salt, H, login, response, [EncodeRequest(vs)] + rest);
    var a := Authenticate(users, c, salt, H);
    assert a.conn.sendCaps == [] by {
      SendCapsKept(users, c, salt, H);
    }
    WholeRequestServed(a.conn, vs, rest);
  }

  /** With a socket that accepts every send whole, the handshake leaves it so. */
  lemma SendCapsKept(users: Users, c: Conn, salt: UInt64, H: Bytes -> Bytes)
    requires c.sendCaps == []
    ensures Authenticate(users, c, salt, H).conn.sendCaps == []
  {
  }
}

=== FILE: credentials.dfy ===
/** The credential store: `login:secret` lines folded into a login -> secret map.
    A line is split at its first ':'; it is kept only when that colon is neither
    the first nor the last char. A later line for the same login replaces an
    earlier one. */
module Credentials {
  import opened Bytes

  type Users = map<Bytes, Bytes>

  /** std::string::find for one char: the index of its first occurrence. */
  function Find(s: Bytes, c: Byte): (r: Option<nat>)
    ensures r.Some? ==> r.value < |s| && s[r.value] == c && c !in s[..r.value]
    ensures r.None? ==> c !in s
  {
    if |s| == 0 then None
    else if s[0] == c then Some(0)
    else
      match Find(s[1..], c)
      case None => None
      case Some(k) =>
        assert s[..k + 1] == [s[0]] + s[1..][..k];
        Some(k + 1)
  }

  /** One line of the file: the (login, secret) pair it contributes, if any. */
  function ParseLine(line: Bytes): (r: Option<(Bytes, Bytes)>)
    ensures r.Some? ==>
      var (login, secret) := r.value;
      line == login + ":" + secret && |login| > 0 && ':' !in login && |secret| > 0
  {
    var rejected: Option<(Bytes, Bytes)> := None;
    match Find(line, ':')
    case None => rejected
    case Some(pos) =>
      if pos > 0 && pos < |line| - 1 then
        var login := line[..pos];
        var password := line[pos + 1..];
        if |login| > 0 && |password| > 0 then
          assert line == login + ":" + password;
          Some((login, password))
        else rejected
      else rejected
  }

  /** Find returns the first occurrence and nothing else. */
  lemma {:induction false} FindFirst(s: Bytes, c: Byte, pos: nat)
    requires pos < |s| && s[pos] == c && c !in s[..pos]
    ensures Find(s, c) == Some(pos)
  {
    if pos > 0 {
      assert s[0] == s[..pos][0];
      assert s[1..][..pos - 1] == s[..pos][1..];
      FindFirst(s[1..], c, pos - 1);
    }
  }

  /** The first-colon rule: with the first ':' at `pos`, the line is accepted
      iff 0 < pos < |line| - 1, and then splits around that colon. */
  lemma ParseLineFirstColon(line: Bytes, pos: nat)
    requires pos < |line| && line[pos] == ':' && ':' !in line[..pos]
    ensures ParseLine(line).Some? <==> 0 < pos < |line| - 1
    ensures ParseLine(line).Some? ==> ParseLine(line).value == (line[..pos], line[pos + 1..])
  {
    FindFirst(line, ':', pos);
  }

  /** A line without any ':' is rejected. */
  lemma ParseLineNoColon(line: Bytes)
    requires ':' !in line
    ensures ParseLine(line).None?
  {
  }

  /** A colon-free non-empty login, a colon and a non-empty secret (which may
      itself contain colons) is accepted as exactly that pair. */
  lemma ParseLineAccepts(login: Bytes, secret: Bytes)
    requires |login| > 0 && ':' !in login && |secret| > 0
    ensures ParseLine(login + ":" + secret) == Some((login, secret))
  {
    var line := login + ":" + secret;
    assert line[..|login|] == login;
    assert line[|login| + 1..] == secret;
    ParseLineFirstColon(line, |login|);
  }

  /** `users[login] = password` for an accepted line; nothing for a rejected one. */
  function AddLine(users: Users, line: Bytes): (r: Users)
    ensures ParseLine(line).None? ==> r == users
    ensures ParseLine(line).Some? ==>
      var (login, secret) := ParseLine(line).value;
      r.Keys == users.Keys + {login} && r[login] == secret &&
      forall k :: k in users && k != login ==> r[k] == users[k]
  {
    match ParseLine(line)
    case None => users
    case Some((login, password)) => users[login := password]
  }

  /** The getline loop of loadUserDatabase, in file order. */
  function LoadLines(users: Users, lines: seq<Bytes>): (r: Users)
    ensures users.Keys <= r.Keys
    decreases |lines|
  {
    if |lines| == 0 then users else LoadLines(AddLine(users, lines[0]), lines[1..])
  }

  /** loadUserDatabase: an unopenable file (None) or an empty one leaves the
      table as it was. */
  function LoadUserDatabase(users: Users, file: Option<seq<Bytes>>): (r: Users)
    ensures file.None? || file == Some([]) ==> r == users
  {
    match file
    case None => users
    case Some(lines) => LoadLines(users, lines)
  }

  /** Reading one more line at the end of the file applies just that line. */
  lemma {:induction false} LoadLinesSnoc(users: Users, lines: seq<Bytes>, line: Bytes)
    ensures LoadLines(users, lines + [line]) == AddLine(LoadLines(users, lines), line)
    decreases |lines|
  {
    if |lines| > 0 {
      assert (lines + [line])[1..] == lines[1..] + [line];
      LoadLinesSnoc(AddLine(users, lines[0]), lines[1..], line);
    }
  }

  /** Reference reading of the file: the secret of the LAST accepted line for
      `login`, searching backwards from the end. */
  function LastSecret(lines: seq<Bytes>, login: Bytes): Option<Bytes>
  {
    if |lines| == 0 then None
    else
      match ParseLine(lines[|lines| - 1])
      case Some((l, s)) =>
        if l == login then Some(s) else LastSecret(lines[..|lines| - 1], login)
      case None => LastSecret(lines[..|lines| - 1], login)
  }

  function Lookup(users: Users, login: Bytes): Option<Bytes>
  {
    if login in users then Some(users[login]) else None
  }

  /** The loaded table holds, for each login, the secret of its last accepted
      line; logins without one keep their earlier entry (none, at startup). */
  lemma {:induction false} LoadLinesLastWins(users: Users, lines: seq<Bytes>, login: Bytes)
    ensures Lookup(LoadLines(users, lines), login) ==
      (match LastSecret(lines, login) case Some(s) => Some(s) case None => Lookup(users, login))
    decreases |lines|
  {
    if |lines| > 0 {
      var init := lines[..|lines| - 1];
      var last := lines[|lines| - 1];
      assert lines == init + [last];
      LoadLinesSnoc(users, init, last);
      LoadLinesLastWins(users, init, login);
    }
  }

  /** A login is in the table built from an empty one iff some line of the file
      is accepted with that login. */
  lemma {:induction false} LoadedLogins(lines: seq<Bytes>, login: Bytes)
    ensures login in LoadLines(map[], lines) <==>
      exists i :: 0 <= i < |lines| && ParseLine(lines[i]).Some? && ParseLine(lines[i]).value.0 == login
    decreases |lines|
  {
    LoadLinesLastWins(map[], lines, login);
    if |lines| > 0 {
      var init := lines[..|lines| - 1];
      var last := lines[|lines| - 1];
      LoadedLogins(init, login);
      LoadLinesLastWins(map[], init, login);
      if exists i :: 0 <= i < |lines| && ParseLine(lines[i]).Some? && ParseLine(lines[i]).value.0 == login {
        var i :| 0 <= i < |lines| && ParseLine(lines[i]).Some? && ParseLine(lines[i]).value.0 == login;
        if i < |lines| - 1 {
          assert init[i] == lines[i];
        }
      }
      if exists i :: 0 <= i < |init| && ParseLine(init[i]).Some? && ParseLine(init[i]).value.0 == login {
        var i :| 0 <= i < |init| && ParseLine(init[i]).Some? && ParseLine(init[i]).value.0 == login;
        assert lines[i] == init[i];
      }
    }
  }

  lemma LoadTwoLines(users: Users, a: Bytes, b: Bytes)
    ensures LoadLines(users, [a, b]) == AddLine(AddLine(users, a), b)
  {
    var u1 := AddLine(users, a);
    assert [a, b][1..] == [b];
    assert [b][1..] == [];
    assert LoadLines(users, [a, b]) == LoadLines(u1, [b]);
    assert LoadLines(u1, [b]) == LoadLines(AddLine(u1, b), []);
  }

  /** The shape of the mixed file in the repository's tests (`user1pass1`,
      `user2:pass2`, `:pass3`, `user4:`, `user5:pass5`): a line without a colon,
      a good line, a line with an empty login, a line with an empty secret and a
      second good line load as exactly the two good entries. */
  lemma MixedFile(noColon: Bytes, u2: Bytes, p2: Bytes, p3: Bytes, u4: Bytes, u5: Bytes, p5: Bytes)
    requires ':' !in noColon
    requires |u2| > 0 && ':' !in u2 && |p2| > 0
    requires |u4| > 0 && ':' !in u4
    requires |u5| > 0 && ':' !in u5 && |p5| > 0
    ensures LoadUserDatabase(map[], Some([noColon, u2 + ":" + p2, ":" + p3, u4 + ":", u5 + ":" + p5]))
      == map[u2 := p2, u5 := p5]
  {
    var lines := [noColon, u2 + ":" + p2, ":" + p3, u4 + ":", u5 + ":" + p5];
    var none: Users := map[];
    ParseLineNoColon(lines[0]);
    ParseLineAccepts(u2, p2);
    ParseLineFirstColon(lines[2], 0);
    assert lines[3][..|u4|] == u4;
    ParseLineFirstColon(lines[3], |u4|);
    ParseLineAccepts(u5, p5);
    var m2 := none[u2 := p2];
    LoadTwoLines(m2, lines[3], lines[4]);
    assert lines[3..] == [lines[3], lines[4]];
    assert LoadLines(m2, lines[2..]) == LoadLines(m2, lines[3..]);
    assert LoadLines(none, lines) == LoadLines(none, lines[1..]);
    assert LoadLines(none, lines[1..]) == LoadLines(m2, lines[2..]);
  }

  /** A well-formed file of three distinct users yields exactly three entries. */
  lemma ThreeUserFile(u1: Bytes, p1: Bytes, u2: Bytes, p2: Bytes, u3: Bytes, p3: Bytes)
    requires |u1| > 0 && ':' !in u1 && |p1| > 0
    requires |u2| > 0 && ':' !in u2 && |p2| > 0
    requires |u3| > 0 && ':' !in u3 && |p3| > 0
    requires u1 != u2 && u2 != u3 && u1 != u3
    ensures |LoadUserDatabase(map[], Some([u1 + ":" + p1, u2 + ":" + p2, u3 + ":" + p3]))| == 3
  {
    var lines := [u1 + ":" + p1, u2 + ":" + p2, u3 + ":" + p3];
    var none: Users := map[];
    ParseLineAccepts(u1, p1);
    ParseLineAccepts(u2, p2);
    ParseLineAccepts(u3, p3);
    var m1 := none[u1 := p1];
    var m3 := m1[u2 := p2][u3 := p3];
    LoadTwoLines(m1, lines[1], lines[2]);
    assert lines[1..] == [lines[1], lines[2]];
    assert LoadLines(none, lines) == LoadLines(m1, lines[1..]);
    assert m3.Keys == {u1, u2, u3};
  }
}

=== FILE: handshake.dfy ===
/** The challenge/response handshake that opens every connection.
    The client sends its login; an unknown login gets "ERR" and nothing else;
    a known one gets a fresh 16-char hex salt, must answer with the hex SHA-224
    digest of salt ++ secret (any letter case), and gets "OK" or "ERR".
    The digest function and the 64-bit salt value are parameters: the server
    takes them from OpenSSL and from a random generator. */
module Handshake {
  import opened Bytes
  import opened Hex
  import opened Channel
  import opened Credentials

  /** Each recv reads at most sizeof(buffer) - 1 bytes, keeping room for the NUL. */
  const RecvLimit: nat := 255

  const Err: Bytes := "ERR"
  const Ok: Bytes := "OK"

  datatype Failure = NoLoginReceived | UnknownLogin | SaltSendFailed | NoResponseReceived | HashMismatch

  datatype Outcome = Authenticated(login: Bytes) | Failed(reason: Failure)

  datatype AuthResult = AuthResult(outcome: Outcome, conn: Conn)

  /** The text the client has to send back for `salt` and `secret`. */
  function ExpectedResponse(H: Bytes -> Bytes, salt: UInt64, secret: Bytes): (r: Bytes)
    ensures |r| == 2 * |H(SaltHex(salt) + secret)| && IsUpperHex(r)
    ensures DigestOfHex(r) == H(SaltHex(salt) + secret)
  {
    DigestHexRoundTrip(H(SaltHex(salt) + secret));
    DigestHex(H(SaltHex(salt) + secret))
  }

  /** Steps 4 and 5, once the salt is out: read the response and compare. */
  function Verify(c: Conn, expected: Bytes, login: Bytes): (r: AuthResult)
    ensures r.outcome == Failed(NoResponseReceived) || r.outcome == Failed(HashMismatch) || r.outcome == Authenticated(login)
    ensures r.outcome == Failed(NoResponseReceived) ==> r.conn.trace == c.trace && r.conn.sent == c.sent
    ensures r.outcome == Failed(HashMismatch) ==> r.conn.sent == c.sent + [Err]
    ensures r.outcome.Authenticated? ==> r.conn.sent == c.sent + [Ok]
    ensures var data := Recv(c, RecvLimit).data;
      && (r.outcome == Failed(NoResponseReceived) <==> data == [])
      && (r.outcome.Authenticated? <==> data != [] && Upper(CString(data)) == expected)
    ensures c.sent == Outputs(c.trace) ==> r.conn.sent == Outputs(r.conn.trace)
  {
    var resp := Recv(c, RecvLimit);
    if |resp.data| == 0 then AuthResult(Failed(NoResponseReceived), resp.conn)
    else
      var received := Upper(CString(resp.data));
      if expected == received then
        AuthResult(Authenticated(login), Send(resp.conn, Ok).conn)
      else
        AuthResult(Failed(HashMismatch), Send(resp.conn, Err).conn)
  }

  /** Step 3 onwards for a known login: send the salt, then verify. */
  function Challenge(c: Conn, login: Bytes, secret: Bytes, salt: UInt64, H: Bytes -> Bytes): (r: AuthResult)
    ensures r.outcome == Failed(SaltSendFailed) || r.outcome == Failed(NoResponseReceived)
         || r.outcome == Failed(HashMismatch) || r.outcome == Authenticated(login)
    ensures r.outcome == Failed(SaltSendFailed) || r.outcome == Failed(NoResponseReceived) ==>
      r.conn.sent == c.sent + [SaltHex(salt)]
    ensures r.outcome == Failed(HashMismatch) ==> r.conn.sent == c.sent + [SaltHex(salt), Err]
    ensures r.outcome.Authenticated? ==> r.conn.sent == c.sent + [SaltHex(salt), Ok]
    ensures c.sent == Outputs(c.trace) ==> r.conn.sent == Outputs(r.conn.trace)
  {
    var saltText := SaltHex(salt);
    var s := Send(c, saltText);
    if s.count != SaltHexLength then AuthResult(Failed(SaltSendFailed), s.conn)
    else Verify(s.conn, ExpectedResponse(H, salt, secret), login)
  }

  /** Server::authenticate. */
  function Authenticate(users: Users, c: Conn, salt: UInt64, H: Bytes -> Bytes): (r: AuthResult)
    ensures r.outcome.Authenticated? ==> r.outcome.login in users
    ensures r.outcome == Failed(NoLoginReceived) ==> r.conn.trace == c.trace && r.conn.sent == c.sent
    ensures r.outcome == Failed(UnknownLogin) ==> r.conn.sent == c.sent + [Err]
    ensures r.outcome == Failed(SaltSendFailed) || r.outcome == Failed(NoResponseReceived) ==>
      r.conn.sent == c.sent + [SaltHex(salt)]
    ensures r.outcome == Failed(HashMismatch) ==> r.conn.sent == c.sent + [SaltHex(salt), Err]
    ensures r.outcome.Authenticated? ==> r.conn.sent == c.sent + [SaltHex(salt), Ok]
    ensures c.sent == Outputs(c.trace) ==> r.conn.sent == Outputs(r.conn.trace)
  {
    var got := Recv(c, RecvLimit);
    if |got.data| == 0 then AuthResult(Failed(NoLoginReceived), got.conn)
    else
      var login := CString(got.data);
      if login !in users then
        AuthResult(Failed(UnknownLogin), Send(got.conn, Err).conn)
      else Challenge(got.conn, login, users[login], salt, H)
  }

  /** A connection that yields nothing on the first recv fails with nothing sent. */
  lemma NoLoginNothingSent(users: Users, c: Conn, salt: UInt64, H: Bytes -> Bytes)
    requires c.inbox == [] || c.inbox[0] == []
    ensures Authenticate(users, c, salt, H).outcome == Failed(NoLoginReceived)
    ensures Authenticate(users, c, salt, H).conn.trace == c.trace
  {
  }

  /** An unknown login is answered with "ERR" alone: no salt is ever sent and the
      response is never read. */
  lemma UnknownLoginGetsErr(users: Users, c: Conn, salt: UInt64, H: Bytes -> Bytes, loginMsg: Bytes, rest: seq<Bytes>)
    requires c.inbox == [loginMsg] + rest && 0 < |loginMsg| <= RecvLimit
    requires CString(loginMsg) !in users
    ensures Authenticate(users, c, salt, H).outcome == Failed(UnknownLogin)
    ensures Authenticate(users, c, salt, H).conn.sent == c.sent + [Err]
    ensures Authenticate(users, c, salt, H).conn.inbox == rest
  {
  }

  /** A known login is sent the salt first; if the send is short the handshake
      fails at once, without reading a response. */
  lemma ShortSaltSendStops(users: Users, c: Conn, salt: UInt64, H: Bytes -> Bytes, loginMsg: Bytes, rest: seq<Bytes>)
    requires c.inbox == [loginMsg] + rest && 0 < |loginMsg| <= RecvLimit
    requires CString(loginMsg) in users
    requires c.sendCaps != [] && c.sendCaps[0] < SaltHexLength
    ensures Authenticate(users, c, salt, H).outcome == Failed(SaltSendFailed)
    ensures Authenticate(users, c, salt, H).conn.sent == c.sent + [SaltHex(salt)]
    ensures Authenticate(users, c, salt, H).conn.inbox == rest
  {
  }

  /** For a client whose login and response each arrive in one recv, and a
      socket that accepts every send whole: the handshake succeeds exactly when
      the login is known and the response, upper-cased and cut at the first NUL,
      is the hex digest of salt ++ secret. The server sends the salt, then "OK"
      on success and "ERR" otherwise; nothing beyond the response is read. */
  lemma KnownLoginVerdict(users: Users, c: Conn, salt: UInt64, H: Bytes -> Bytes,
                          loginMsg: Bytes, response: Bytes, rest: seq<Bytes>)
    requires c.inbox == [loginMsg, response] + rest && c.sendCaps == []
    requires 0 < |loginMsg| <= RecvLimit && 0 < |response| <= RecvLimit
    requires CString(loginMsg) in users
    ensures var r := Authenticate(users, c, salt, H);
      var ok := Upper(CString(response)) == ExpectedResponse(H, salt, users[CString(loginMsg)]);
      && (r.outcome.Authenticated? <==> ok)
      && (ok ==> r.outcome == Authenticated(CString(loginMsg)))
      && (!ok ==> r.outcome == Failed(HashMismatch))
      && r.conn.sent == c.sent + [SaltHex(salt), if ok then Ok else Err]
      && r.conn.trace == c.trace + [In(loginMsg), Out(SaltHex(salt)), In(response), Out(if ok then Ok else Err)]
      && r.conn.inbox == rest
  {
    var c1 := Recv(c, RecvLimit).conn;
    assert c1.inbox == [response] + rest;
    var c2 := Send(c1, SaltHex(salt)).conn;
    assert c2.inbox == [response] + rest;
  }

  /** An honest client, which computes the digest itself and sends it in any
      letter case without a trailing NUL or newline, is authenticated. */
  lemma HonestClientAccepted(users: Users, c: Conn, salt: UInt64, H: Bytes -> Bytes,
                             login: Bytes, response: Bytes, rest: seq<Bytes>)
    requires 0 < |login| <= RecvLimit && '\0' !in login && login in users
    requires Upper(response) == ExpectedResponse(H, salt, users[login])
    requires 0 < |response| <= RecvLimit && '\0' !in response
    requires c.inbox == [login, response] + rest && c.sendCaps == []
    ensures Authenticate(users, c, salt, H).outcome == Authenticated(login)
    ensures Authenticate(users, c, salt, H).conn.sent == c.sent + [SaltHex(salt), Ok]
  {
    CStringOfNulFree(login);
    CStringOfNulFree(response);
    KnownLoginVerdict(users, c, salt, H, login, response, rest);
  }

  /** The response comparison ignores letter case: the text before the first
      NUL matches exactly when it is the expected digest text with any of its
      letters `A`..`F` written in lower case. */
  lemma ResponseCaseInsensitive(H: Bytes -> Bytes, salt: UInt64, secret: Bytes, response: Bytes)
    ensures Upper(CString(response)) == ExpectedResponse(H, salt, secret)
      <==> CaseVariant(CString(response), ExpectedResponse(H, salt, secret))
  {
    var e := ExpectedResponse(H, salt, secret);
    assert forall i :: 0 <= i < |e| ==> IsUpperHexDigit(e[i]);
    UpperIsCaseFold(CString(response), e);
  }

  /** With a SHA-224 digest the expected response is 56 upper-case hex chars, so
      it always fits in one receive buffer. */
  lemma ExpectedResponseShape(H: Bytes -> Bytes, salt: UInt64, secret: Bytes)
    requires |H(SaltHex(salt) + secret)| == DigestLength
    ensures |ExpectedResponse(H, salt, secret)| == 56 <= RecvLimit
    ensures IsUpperHex(ExpectedResponse(H, salt, secret))
  {
  }
}

=== FILE: hex.dfy ===
/** Hex rendering of the digest and the salt. Both go through a stringstream in
    std::hex mode with '0' fill (lower-case digits), and the resulting string is
    then upper-cased char by char. */
module Hex {
  import opened Bytes

  const DigestLength: nat := 28
  const SaltHexLength: nat := 16

  predicate IsLowerHexDigit(c: Byte)
  {
    '0' <= c <= '9' || 'a' <= c <= 'f'
  }

  predicate IsUpperHexDigit(c: Byte)
  {
    '0' <= c <= '9' || 'A' <= c <= 'F'
  }

  predicate IsUpperHex(s: Bytes)
  {
    forall i :: 0 <= i < |s| ==> IsUpperHexDigit(s[i])
  }

  /** The digit std::hex writes for 0 <= d < 16. */
  function LowerDigit(d: nat): (c: Byte)
    requires d < 16
    ensures IsLowerHexDigit(c)
  {
    if d < 10 then ('0' as int + d) as char else ('a' as int + d - 10) as char
  }

  /** The value of one hex digit, either case. */
  function DigitValue(c: Byte): (d: nat)
    requires IsLowerHexDigit(c) || IsUpperHexDigit(c)
    ensures d < 16
  {
    if '0' <= c <= '9' then c as int - '0' as int
    else if 'a' <= c <= 'f' then c as int - 'a' as int + 10
    else c as int - 'A' as int + 10
  }

  function Pow16(w: nat): (p: nat)
    ensures p > 0
  {
    if w == 0 then 1 else 16 * Pow16(w - 1)
  }

  lemma Pow16Of16()
    ensures Pow16(16) == 0x1_0000_0000_0000_0000
  {
    assert Pow16(4) == 0x1_0000;
    assert Pow16(8) == 0x1_0000 * Pow16(4);
    assert Pow16(12) == 0x1_0000 * Pow16(8);
    assert Pow16(16) == 0x1_0000 * Pow16(12);
  }

  /** `ss << std::setw(w) << v` with '0' fill, for a value that fits in w digits. */
  function Padded(v: nat, w: nat): (s: Bytes)
    requires v < Pow16(w)
    ensures |s| == w
    ensures forall i :: 0 <= i < |s| ==> IsLowerHexDigit(s[i])
  {
    if w == 0 then [] else Padded(v / 16, w - 1) + [LowerDigit(v % 16)]
  }

  /** The number an upper- or lower-case hex string denotes, most significant digit first. */
  function HexValue(s: Bytes): nat
    requires forall i :: 0 <= i < |s| ==> IsLowerHexDigit(s[i]) || IsUpperHexDigit(s[i])
  {
    if |s| == 0 then 0 else 16 * HexValue(s[..|s| - 1]) + DigitValue(s[|s| - 1])
  }

  lemma UpperOfLowerHex(s: Bytes)
    requires forall i :: 0 <= i < |s| ==> IsLowerHexDigit(s[i])
    ensures IsUpperHex(Upper(s))
    ensures forall i :: 0 <= i < |s| ==> DigitValue(Upper(s)[i]) == DigitValue(s[i])
  {
  }

  /** The lower-case text of a digest, two zero-padded digits per byte. */
  function LowerDigestHex(d: Bytes): (s: Bytes)
    ensures |s| == 2 * |d|
    ensures forall i :: 0 <= i < |s| ==> IsLowerHexDigit(s[i])
  {
    if |d| == 0 then [] else Padded(Val(d[0]), 2) + LowerDigestHex(d[1..])
  }

  /** sha224Hash's rendering of the raw digest bytes. */
  function DigestHex(d: Bytes): (s: Bytes)
    ensures |s| == 2 * |d|
    ensures IsUpperHex(s)
  {
    UpperOfLowerHex(LowerDigestHex(d));
    Upper(LowerDigestHex(d))
  }

  /** generateSalt's rendering of the 64-bit salt value. */
  function SaltHex(v: UInt64): (s: Bytes)
    ensures |s| == SaltHexLength
    ensures IsUpperHex(s)
  {
    Pow16Of16();
    UpperOfLowerHex(Padded(v, 16));
    Upper(Padded(v, 16))
  }

  /** Reads back a digest from its hex text, two digits per byte. */
  function DigestOfHex(s: Bytes): (d: Bytes)
    requires |s| % 2 == 0
    requires IsUpperHex(s)
    ensures 2 * |d| == |s|
  {
    if |s| == 0 then []
    else
      var n := 16 * DigitValue(s[0]) + DigitValue(s[1]);
      [ByteOf(n)] + DigestOfHex(s[2..])
  }

  lemma {:induction false} PaddedValue(v: nat, w: nat)
    requires v < Pow16(w)
    ensures HexValue(Upper(Padded(v, w))) == v
  {
    if w > 0 {
      var p := Padded(v, w);
      var u := Upper(p);
      assert p[..w - 1] == Padded(v / 16, w - 1);
      assert u[..w - 1] == Upper(Padded(v / 16, w - 1));
      UpperOfLowerHex(p);
      PaddedValue(v / 16, w - 1);
    }
  }

  /** The salt text determines the salt value: rendering loses nothing. */
  lemma SaltHexRoundTrip(v: UInt64)
    ensures HexValue(SaltHex(v)) == v
  {
    Pow16Of16();
    PaddedValue(v, 16);
  }

  lemma SaltHexInjective(v: UInt64, w: UInt64)
    requires SaltHex(v) == SaltHex(w)
    ensures v == w
  {
    SaltHexRoundTrip(v);
    SaltHexRoundTrip(w);
  }

  /** The digest text determines the digest bytes. */
  lemma {:induction false} DigestHexRoundTrip(d: Bytes)
    ensures DigestOfHex(DigestHex(d)) == d
  {
    if |d| > 0 {
      var p := Padded(Val(d[0]), 2);
      var rest := LowerDigestHex(d[1..]);
      UpperAppend(p, rest);
      var s := DigestHex(d);
      assert s[..2] == Upper(p);
      assert s[2..] == DigestHex(d[1..]);
      PaddedValue(Val(d[0]), 2);
      assert HexValue(Upper(p)) == 16 * DigitValue(s[0]) + DigitValue(s[1]) by {
        assert Upper(p)[..1] == [s[0]];
      }
      DigestHexRoundTrip(d[1..]);
    }
  }

  lemma DigestHexInjective(d: Bytes, e: Bytes)
    requires DigestHex(d) == DigestHex(e)
    ensures d == e
  {
    DigestHexRoundTrip(d);
    DigestHexRoundTrip(e);
  }

  /** A SHA-224 digest renders as 56 upper-case hex chars. */
  lemma DigestHexOfSha224(d: Bytes)
    requires |d| == DigestLength
    ensures |DigestHex(d)| == 56
    ensures IsUpperHex(DigestHex(d))
  {
  }

  /** Upper-casing the rendered text changes nothing: it is already upper case. */
  lemma UpperOfUpperHex(s: Bytes)
    requires IsUpperHex(s)
    ensures Upper(s) == s
  {
  }
}

=== FILE: sum_of_squares.dfy ===
/** The saturating sum of squares computed for every received vector.
    Squares are taken and summed in a 64-bit accumulator; after each addition the
    running sum is checked against the int16 bounds and the loop returns the bound
    as soon as it is crossed. */
module SumOfSquares {
  import opened Bytes

  /** A square taken in the wide type, as `static_cast<int64_t>(value) * static_cast<int64_t>(value)`. */
  function Square(x: Int16): (r: nat)
    ensures r <= 0x4000_0000
  {
    var a: int := if x < 0 then -(x as int) else x as int;
    SquareBound(a);
    assert (x as int) * (x as int) == a * a;
    (x as int) * (x as int)
  }

  lemma SquareBound(a: int)
    requires 0 <= a <= 0x8000
    ensures a * a <= 0x4000_0000
  {
    assert a * a <= a * 0x8000 by {
      MulLeft(a, a, 0x8000);
    }
  }

  lemma MulLeft(k: int, x: int, y: int)
    requires 0 <= k && x <= y
    ensures k * x <= k * y
  {
  }

  /** The exact sum of the squares, no clamping; `v[..i]` is what the loop has seen. */
  function SumSq(v: seq<Int16>): nat
  {
    if |v| == 0 then 0 else SumSq(v[..|v| - 1]) + Square(v[|v| - 1])
  }

  /** The reference result: the exact sum clamped to int16. */
  function Clamped(v: seq<Int16>): Int16
  {
    Min(SumSq(v), Int16Max)
  }

  /** static_cast<int16_t> of a wide integer: reduction modulo 2^16 into [-32768, 32767]. */
  function Narrow16(x: int): (r: Int16)
    ensures Int16Min <= x <= Int16Max ==> r == x
    ensures (r - x) % 0x1_0000 == 0
  {
    var u := x % 0x1_0000;
    if u > Int16Max then u - 0x1_0000 else u
  }

  /** Squares only add: the sum over a prefix never exceeds the sum over the whole. */
  lemma {:induction false} SumSqPrefix(v: seq<Int16>, i: nat)
    requires i <= |v|
    ensures SumSq(v[..i]) <= SumSq(v)
    decreases |v| - i
  {
    if i < |v| {
      assert v[..i + 1][..i] == v[..i];
      SumSqPrefix(v, i + 1);
    } else {
      assert v[..i] == v;
    }
  }

  /** One more element adds its square. */
  lemma SumSqStep(v: seq<Int16>, i: nat)
    requires i < |v|
    ensures SumSq(v[..i + 1]) == SumSq(v[..i]) + Square(v[i])
  {
    assert v[..i + 1][..i] == v[..i];
  }

  /** The loop of calculateSumOfSquares from index i with running sum `sum`,
      both early returns included. */
  function Accumulate(v: seq<Int16>, i: nat, sum: int): (r: int)
    requires i <= |v|
    requires sum == SumSq(v[..i]) && sum <= Int16Max
    ensures r == Clamped(v)
    decreases |v| - i
  {
    if i == |v| then
      assert v[..i] == v;
      Narrow16(sum)
    else
      var s := sum + Square(v[i]);
      SumSqStep(v, i);
      if s > Int16Max then
        SumSqPrefix(v, i + 1);
        Int16Max
      else if s < Int16Min then Int16Min
      else Accumulate(v, i + 1, s)
  }

  /** calculateSumOfSquares as written: 0 for the empty vector, else the loop. */
  function SumOfSquaresAsWritten(v: seq<Int16>): (r: Int16)
    ensures r == Clamped(v)
    ensures 0 <= r <= Int16Max
  {
    if |v| == 0 then 0 else Accumulate(v, 0, 0)
  }

  /** The same computation as an imperative loop over a 64-bit accumulator. */
  method CalculateSumOfSquares(v: seq<Int16>) returns (r: Int16)
    ensures r == Min(SumSq(v), Int16Max)
    ensures |v| == 0 ==> r == 0
    ensures 0 <= r <= Int16Max
  {
    if |v| == 0 {
      return 0;
    }
    var sum: int := 0;
    var i := 0;
    while i < |v|
      invariant 0 <= i <= |v|
      invariant sum == SumSq(v[..i])
      invariant 0 <= sum <= Int16Max
    {
      var square := Square(v[i]);
      SumSqStep(v, i);
      sum := sum + square;
      // the accumulator stays far inside int64_t
      assert sum < 0x8000_0000_0000_0000;
      if sum > Int16Max {
        SumSqPrefix(v, i + 1);
        return Int16Max;
      }
      if sum < Int16Min {
        // unreachable: a sum of squares is never negative
        assert false;
      }
      i := i + 1;
    }
    assert v[..i] == v;
    r := Narrow16(sum);
  }

  /** The lower clamp never fires and no result is negative. */
  lemma LowerClampUnreachable(v: seq<Int16>, i: nat)
    requires i <= |v|
    ensures SumSq(v[..i]) >= 0 > Int16Min
    ensures SumOfSquaresAsWritten(v) != Int16Min
  {
  }

  /** The exact sum, a clamp that saturates only above: result is the sum while it fits. */
  lemma {:induction false} ClampIsExactWhenSmall(v: seq<Int16>)
    requires SumSq(v) <= Int16Max
    ensures SumOfSquaresAsWritten(v) == SumSq(v)
    ensures forall i :: 0 <= i <= |v| ==> SumSq(v[..i]) <= Int16Max
  {
    forall i | 0 <= i <= |v|
      ensures SumSq(v[..i]) <= Int16Max
    {
      SumSqPrefix(v, i);
    }
  }

  /** The cases exercised by the repository's unit tests. */
  lemma UnitTestCases()
    ensures SumOfSquaresAsWritten([1, 2, 3, 4]) == 30
    ensures SumOfSquaresAsWritten([-1, 2, -3, 4]) == 30
    ensures SumOfSquaresAsWritten([42]) == 1764
    ensures SumOfSquaresAsWritten([]) == 0
    ensures SumOfSquaresAsWritten([0, 5, 10]) == 125
    ensures SumOfSquaresAsWritten([200, 200]) == Int16Max
    ensures SumOfSquaresAsWritten([-200, -200]) == Int16Max
    ensures SumOfSquaresAsWritten([1000, 1000]) == Int16Max
  {
    var a: seq<Int16> := [1, 2, 3, 4];
    assert a[..3] == [1, 2, 3] && a[..3][..2] == [1, 2] && a[..3][..2][..1] == [1];
    var b: seq<Int16> := [-1, 2, -3, 4];
    assert b[..3] == [-1, 2, -3] && b[..3][..2] == [-1, 2] && b[..3][..2][..1] == [-1];
    var c: seq<Int16> := [0, 5, 10];
    assert c[..2] == [0, 5] && c[..2][..1] == [0];
    var d: seq<Int16> := [200, 200];
    assert d[..1] == [200];
    var e: seq<Int16> := [-200, -200];
    assert e[..1] == [-200];
    var f: seq<Int16> := [1000, 1000];
    assert f[..1] == [1000];
  }
}

=== FILE: vector_engine.dfy ===
/** The vector exchange that follows a successful handshake.
    The client sends a uint32 count, then for each vector a uint32 size and
    size int16 elements; the server answers each vector with its saturated sum of
    squares (one int16) before it reads the next size. Integers travel in the
    server's host order, little-endian. The count and each size are read with a
    single recv of 4 bytes, and anything shorter ends the exchange; the elements
    are read with a loop that accumulates partial reads. */
module VectorEngine {
  import opened Bytes
  import opened Channel
  import opened SumOfSquares

  datatype Stop = Completed | CountReadFailed | SizeReadFailed | PayloadReadFailed | ResultSendFailed

  /** Why the exchange ended, the vectors received whole, the result computed
      (and sent) for each of them, and the connection afterwards. */
  datatype EngineResult = EngineResult(stop: Stop, vectors: seq<seq<Int16>>, results: seq<Int16>, conn: Conn)

  datatype Payload = Payload(data: Option<Bytes>, conn: Conn)

  /** One vector's exchange: `vector` is present once its elements are in, and
      `stop` is Completed when its result was sent in full. */
  datatype VectorStep = VectorStep(stop: Stop, vector: Option<seq<Int16>>, conn: Conn)

  /** Each count or size field is one recv of sizeof(uint32_t) bytes. */
  const FieldSize: nat := 4

  /** What a client sends for one vector: its size, then its elements. */
  function EncodeVector(v: seq<Int16>): Bytes
    requires |v| < 0x1_0000_0000
  {
    EncodeU32(|v|) + EncodeI16s(v)
  }

  predicate Framable(vs: seq<seq<Int16>>)
  {
    forall i :: 0 <= i < |vs| ==> |vs[i]| < 0x1_0000_0000
  }

  lemma FramableTail(vs: seq<seq<Int16>>)
    requires Framable(vs) && |vs| > 0
    ensures |vs[0]| < 0x1_0000_0000 && Framable(vs[1..])
  {
    forall i | 0 <= i < |vs| - 1
      ensures |vs[1..][i]| < 0x1_0000_0000
    {
      assert vs[1..][i] == vs[i + 1];
    }
  }

  function EncodeVectors(vs: seq<seq<Int16>>): Bytes
    requires Framable(vs)
  {
    if |vs| == 0 then [] else EncodeVector(vs[0]) + EncodeVectors(vs[1..])
  }

  /** A whole well-formed request: the count, then every vector. */
  function EncodeRequest(vs: seq<seq<Int16>>): Bytes
    requires Framable(vs) && |vs| < 0x1_0000_0000
  {
    EncodeU32(|vs|) + EncodeVectors(vs)
  }

  /** The two-byte replies for a list of results, in order. */
  function EncodeResults(rs: seq<Int16>): (out: seq<Bytes>)
    ensures |out| == |rs|
    ensures forall i :: 0 <= i < |rs| ==> out[i] == EncodeI16(rs[i])
  {
    seq(|rs|, i requires 0 <= i < |rs| => EncodeI16(rs[i]))
  }

  /** The inner while loop of processVectors: recv the remaining bytes until
      `need` bytes are in, failing on the first recv that yields nothing. */
  function ReadPayload(c: Conn, need: nat): (r: Payload)
    ensures r.data.Some? ==> |r.data.value| == need && r.data.value + Stream(r.conn.inbox) == Stream(c.inbox)
    ensures r.conn.sent == c.sent
    ensures r.conn.sendCaps == c.sendCaps
    ensures c.sent == Outputs(c.trace) ==> r.conn.sent == Outputs(r.conn.trace)
    decreases need
  {
    if need == 0 then Payload(Some([]), c)
    else
      var got := Recv(c, need);
      if |got.data| == 0 then Payload(None, got.conn)
      else
        var more := ReadPayload(got.conn, need - |got.data|);
        match more.data
        case None => Payload(None, more.conn)
        case Some(tail) => Payload(Some(got.data + tail), more.conn)
  }

  /** The first half of a pass of the outer loop: a size, then the elements. */
  function ReadVector(c: Conn): (r: VectorStep)
    ensures r.vector.None? ==> r.stop == SizeReadFailed || r.stop == PayloadReadFailed
    ensures r.conn.sent == c.sent
    ensures r.conn.sendCaps == c.sendCaps
    ensures c.sent == Outputs(c.trace) ==> r.conn.sent == Outputs(r.conn.trace)
    ensures r.vector.Some? ==>
      |r.vector.value| < 0x1_0000_0000 && Stream(c.inbox) == EncodeVector(r.vector.value) + Stream(r.conn.inbox)
  {
    var sz := Recv(c, FieldSize);
    if |sz.data| != FieldSize then VectorStep(SizeReadFailed, None, sz.conn)
    else
      var size := DecodeU32(sz.data);
      var p := ReadPayload(sz.conn, 2 * size);
      if p.data.None? then VectorStep(PayloadReadFailed, None, p.conn)
      else
        var payload := p.data.value;
        FramedVector(sz.data, payload);
        Consumed(sz.data, payload, Stream(c.inbox), Stream(sz.conn.inbox), Stream(p.conn.inbox));
        VectorStep(Completed, Some(DecodeI16s(payload)), p.conn)
  }

  /** A size field and as many element pairs as it announces decode to the
      vector whose encoding they are. */
  lemma FramedVector(size: Bytes, payload: Bytes)
    requires |size| == FieldSize && |payload| == 2 * DecodeU32(size)
    ensures |payload| % 2 == 0
    ensures |DecodeI16s(payload)| == DecodeU32(size)
    ensures EncodeVector(DecodeI16s(payload)) == size + payload
  {
    U32RoundTripBytes(size);
    I16sRoundTripBytes(payload);
  }

  /** Two reads in a row take their concatenation off the stream. */
  lemma Consumed<T>(a: seq<T>, b: seq<T>, s0: seq<T>, s1: seq<T>, s2: seq<T>)
    requires a + s1 == s0
    ensures b + s2 == s1 ==> (a + b) + s2 == s0
  {
  }

  /** What was read first stays in front of whatever prefix of the rest is read. */
  lemma PrefixAfter<T>(a: seq<T>, b: seq<T>, s: seq<T>)
    requires b <= s
    ensures a + b <= a + s
  {
    assert (a + s)[..|a + b|] == a + b;
  }

  /** Two rounds of sends in a row put their concatenation on the output list. */
  lemma Appended<T>(o0: seq<T>, a: seq<T>, b: seq<T>, o1: seq<T>, o2: seq<T>)
    requires o1 == o0 + a && o2 == o1 + b
    ensures o2 == o0 + (a + b)
  {
  }

  /** One pass of the outer for loop: read a vector, send its result. */
  function ServeOne(c: Conn): (r: VectorStep)
    ensures r.vector.None? ==> (r.stop == SizeReadFailed || r.stop == PayloadReadFailed) && r.conn.sent == c.sent
    ensures r.vector.Some? ==> r.stop == Completed || r.stop == ResultSendFailed
    ensures r.vector.Some? ==>
      && |r.vector.value| < 0x1_0000_0000
      && r.conn.sent == c.sent + [EncodeI16(Clamped(r.vector.value))]
      && Stream(c.inbox) == EncodeVector(r.vector.value) + Stream(r.conn.inbox)
    ensures r.vector.Some? ==> (r.stop == ResultSendFailed <==> c.sendCaps != [] && c.sendCaps[0] < 2)
    ensures c.sent == Outputs(c.trace) ==> r.conn.sent == Outputs(r.conn.trace)
  {
    var got := ReadVector(c);
    match got.vector
    case None => got
    case Some(v) =>
      var s := Send(got.conn, EncodeI16(SumOfSquaresAsWritten(v)));
      VectorStep(if s.count != 2 then ResultSendFailed else Completed, Some(v), s.conn)
  }

  /** The outer for loop, with `remaining` vectors still to serve. */
  function ServeVectors(c: Conn, remaining: nat): (r: EngineResult)
    ensures r.stop != CountReadFailed
    ensures |r.results| == |r.vectors| <= remaining
    ensures Framable(r.vectors)
    ensures forall i :: 0 <= i < |r.vectors| ==> r.results[i] == Clamped(r.vectors[i])
    ensures r.conn.sent == c.sent + EncodeResults(r.results)
    ensures r.stop == Completed ==> |r.vectors| == remaining
    ensures r.stop == Completed || r.stop == ResultSendFailed ==>
      Stream(c.inbox) == EncodeVectors(r.vectors) + Stream(r.conn.inbox)
    ensures EncodeVectors(r.vectors) <= Stream(c.inbox)
    ensures c.sent == Outputs(c.trace) ==> r.conn.sent == Outputs(r.conn.trace)
    decreases remaining
  {
    if remaining == 0 then EngineResult(Completed, [], [], c)
    else
      var step := ServeOne(c);
      if step.vector.Some? && step.stop == Completed then
        Extend(c, step.vector.value, step.conn, ServeVectors(step.conn, remaining - 1))
      else Halt(c, step)
  }

  /** The loop ends at the vector `step` reports, which was read from `c`:
      nothing more is read. */
  function Halt(c: Conn, step: VectorStep): (r: EngineResult)
    requires step.vector.Some? ==> |step.vector.value| < 0x1_0000_0000
    requires step.vector.Some? ==> Stream(c.inbox) == EncodeVector(step.vector.value) + Stream(step.conn.inbox)
    ensures r.stop == step.stop && r.conn == step.conn
    ensures r.vectors == (if step.vector.Some? then [step.vector.value] else [])
    ensures r.results == (if step.vector.Some? then [Clamped(step.vector.value)] else [])
    ensures Framable(r.vectors)
    ensures EncodeResults(r.results) == (if step.vector.Some? then [EncodeI16(Clamped(step.vector.value))] else [])
    ensures step.vector.Some? ==> Stream(c.inbox) == EncodeVectors(r.vectors) + Stream(r.conn.inbox)
    ensures EncodeVectors(r.vectors) <= Stream(c.inbox)
  {
    match step.vector
    case None => EngineResult(step.stop, [], [], step.conn)
    case Some(v) =>
      assert EncodeVectors([v]) == EncodeVector(v) + EncodeVectors([v][1..]);
      EngineResult(step.stop, [v], [Clamped(v)], step.conn)
  }

  /** The vectors served after a first one `v`, which took the connection
      from `c` to `mid`, make up the whole exchange from `c` once `v` is put
      in front. */
  function Extend(c: Conn, v: seq<Int16>, mid: Conn, rest: EngineResult): (r: EngineResult)
    requires |v| < 0x1_0000_0000 && Framable(rest.vectors)
    requires |rest.results| == |rest.vectors|
    requires forall i :: 0 <= i < |rest.vectors| ==> rest.results[i] == Clamped(rest.vectors[i])
    requires mid.sent == c.sent + [EncodeI16(Clamped(v))]
    requires rest.conn.sent == mid.sent + EncodeResults(rest.results)
    requires Stream(c.inbox) == EncodeVector(v) + Stream(mid.inbox)
    requires rest.stop == Completed || rest.stop == ResultSendFailed ==>
      Stream(mid.inbox) == EncodeVectors(rest.vectors) + Stream(rest.conn.inbox)
    requires EncodeVectors(rest.vectors) <= Stream(mid.inbox)
    requires c.sent == Outputs(c.trace) ==> mid.sent == Outputs(mid.trace)
    requires mid.sent == Outputs(mid.trace) ==> rest.conn.sent == Outputs(rest.conn.trace)
    ensures r.stop == rest.stop && r.conn == rest.conn
    ensures r.vectors == [v] + rest.vectors && r.results == [Clamped(v)] + rest.results
    ensures Framable(r.vectors)
    ensures forall i :: 0 <= i < |r.vectors| ==> r.results[i] == Clamped(r.vectors[i])
    ensures r.conn.sent == c.sent + EncodeResults(r.results)
    ensures r.stop == Completed || r.stop == ResultSendFailed ==>
      Stream(c.inbox) == EncodeVectors(r.vectors) + Stream(r.conn.inbox)
    ensures EncodeVectors(r.vectors) <= Stream(c.inbox)
    ensures c.sent == Outputs(c.trace) ==> r.conn.sent == Outputs(r.conn.trace)
  {
    ServedCons(v, rest.vectors, rest.results);
    PrefixAfter(EncodeVector(v), EncodeVectors(rest.vectors), Stream(mid.inbox));
    Consumed(EncodeVector(v), EncodeVectors(rest.vectors), Stream(c.inbox), Stream(mid.inbox), Stream(rest.conn.inbox));
    Appended(c.sent, [EncodeI16(Clamped(v))], EncodeResults(rest.results), mid.sent, rest.conn.sent);
    EngineResult(rest.stop, [v] + rest.vectors, [Clamped(v)] + rest.results, rest.conn)
  }

  /** Serving one more vector in front of the others extends the request and
      the replies at their front. */
  lemma ServedCons(v: seq<Int16>, vs: seq<seq<Int16>>, rs: seq<Int16>)
    requires |v| < 0x1_0000_0000 && Framable(vs)
    requires |rs| == |vs| && forall i :: 0 <= i < |vs| ==> rs[i] == Clamped(vs[i])
    ensures Framable([v] + vs)
    ensures EncodeVectors([v] + vs) == EncodeVector(v) + EncodeVectors(vs)
    ensures EncodeResults([Clamped(v)] + rs) == [EncodeI16(Clamped(v))] + EncodeResults(rs)
    ensures forall i :: 0 <= i < |vs| + 1 ==> ([Clamped(v)] + rs)[i] == Clamped(([v] + vs)[i])
  {
    var ws := [v] + vs;
    assert ws[1..] == vs;
    assert Framable(ws) by {
      forall i | 0 <= i < |ws|
        ensures |ws[i]| < 0x1_0000_0000
      {
        if i > 0 {
          assert ws[i] == vs[i - 1];
        }
      }
    }
    ResultsCons(Clamped(v), rs);
  }

  lemma ResultsCons(r: Int16, rs: seq<Int16>)
    ensures EncodeResults([r] + rs) == [EncodeI16(r)] + EncodeResults(rs)
  {
    var a := EncodeResults([r] + rs);
    var b := [EncodeI16(r)] + EncodeResults(rs);
    assert |a| == |b|;
    forall i | 0 <= i < |a|
      ensures a[i] == b[i]
    {
      if i > 0 {
        assert ([r] + rs)[i] == rs[i - 1];
      }
    }
  }

  /** Server::processVectors: read the count, then serve that many vectors. */
  function ProcessVectors(c: Conn): (r: EngineResult)
    ensures |r.results| == |r.vectors|
    ensures Framable(r.vectors) && |r.vectors| < 0x1_0000_0000
    ensures forall i :: 0 <= i < |r.vectors| ==> r.results[i] == Clamped(r.vectors[i])
    ensures r.conn.sent == c.sent + EncodeResults(r.results)
    ensures r.stop == CountReadFailed ==> r.vectors == []
    ensures r.stop == Completed ==> Stream(c.inbox) == EncodeRequest(r.vectors) + Stream(r.conn.inbox)
    ensures r.stop != CountReadFailed ==> |Stream(c.inbox)| >= FieldSize
    ensures r.stop != CountReadFailed ==>
      var count := Stream(c.inbox)[..FieldSize];
      |r.vectors| <= DecodeU32(count) && count + EncodeVectors(r.vectors) <= Stream(c.inbox)
    ensures c.sent == Outputs(c.trace) ==> r.conn.sent == Outputs(r.conn.trace)
  {
    var n := Recv(c, FieldSize);
    if |n.data| != FieldSize then
      EngineResult(CountReadFailed, [], [], n.conn)
    else
      U32RoundTripBytes(n.data);
      var r := ServeVectors(n.conn, DecodeU32(n.data));
      Consumed(n.data, EncodeVectors(r.vectors), Stream(c.inbox), Stream(n.conn.inbox), Stream(r.conn.inbox));
      assert Stream(c.inbox)[..FieldSize] == n.data;
      PrefixAfter(n.data, EncodeVectors(r.vectors), Stream(n.conn.inbox));
      r
  }

  /** A count that does not arrive as one 4-byte recv ends the exchange with
      nothing sent, even when the missing bytes follow in the next chunk. */
  lemma ShortCountStops(c: Conn)
    requires c.inbox == [] || |c.inbox[0]| < FieldSize
    ensures ProcessVectors(c).stop == CountReadFailed
    ensures ProcessVectors(c).conn.sent == c.sent
  {
  }

  /** A size field split across two recvs ends the exchange at that vector. */
  lemma ShortSizeStops(c: Conn, remaining: nat)
    requires remaining > 0
    requires c.inbox == [] || |c.inbox[0]| < FieldSize
    ensures ServeVectors(c, remaining).stop == SizeReadFailed
    ensures ServeVectors(c, remaining).vectors == []
    ensures ServeVectors(c, remaining).conn.sent == c.sent
  {
    assert |Recv(c, FieldSize).data| < FieldSize;
    var got := ReadVector(c);
    assert got.stop == SizeReadFailed && got.vector.None?;
    assert ServeOne(c) == got;
    assert ServeVectors(c, remaining) == Halt(c, got);
  }

  /** The elements may arrive in any number of non-empty pieces: the loop
      gathers exactly the first `need` bytes of the stream. */
  lemma {:induction false} ReadPayloadAccumulates(c: Conn, need: nat)
    requires forall i :: 0 <= i < |c.inbox| ==> c.inbox[i] != []
    requires need <= |Stream(c.inbox)|
    ensures ReadPayload(c, need).data == Some(Stream(c.inbox)[..need])
    decreases need
  {
    if need > 0 {
      var got := Recv(c, need);
      assert |got.data| > 0 && forall i :: 0 <= i < |got.conn.inbox| ==> got.conn.inbox[i] != [] by {
        assert |c.inbox| > 0;
        var head := c.inbox[0];
        assert got.data == head[..Min(need, |head|)];
        if |head| <= need {
          assert got.conn.inbox == c.inbox[1..];
        } else {
          assert got.conn.inbox == [head[need..]] + c.inbox[1..];
        }
      }
      ReadPayloadAccumulates(got.conn, need - |got.data|);
      SlicePastPrefix(got.data, Stream(got.conn.inbox), need);
    }
  }

  lemma SlicePastPrefix<T>(a: seq<T>, s: seq<T>, n: nat)
    requires |a| <= n <= |a| + |s|
    ensures (a + s)[..n] == a + s[..n - |a|]
  {
  }

  /** The events one vector produces when it arrives with the rest of the
      request: its size, its elements (if any), then its result. */
  function ReadEvents(v: seq<Int16>): seq<Event>
    requires |v| < 0x1_0000_0000
  {
    [In(EncodeU32(|v|))] + (if |v| == 0 then [] else [In(EncodeI16s(v))])
  }

  function VectorEvents(v: seq<Int16>): seq<Event>
    requires |v| < 0x1_0000_0000
  {
    ReadEvents(v) + [Out(EncodeI16(Clamped(v)))]
  }

  function ExchangeEvents(vs: seq<seq<Int16>>): seq<Event>
    requires Framable(vs)
  {
    if |vs| == 0 then [] else VectorEvents(vs[0]) + ExchangeEvents(vs[1..])
  }

  function Sums(vs: seq<seq<Int16>>): (rs: seq<Int16>)
    ensures |rs| == |vs|
    ensures forall i :: 0 <= i < |vs| ==> rs[i] == Clamped(vs[i])
  {
    seq(|vs|, i requires 0 <= i < |vs| => Clamped(vs[i]))
  }

  /** A size and elements that sit whole at the head of the inbox are read
      by exactly two recvs (one, for an empty vector). */
  lemma ReadVectorWhole(c: Conn, v: seq<Int16>, more: Bytes, rest: seq<Bytes>)
    requires |v| < 0x1_0000_0000
    requires c.inbox == Prepend(EncodeVector(v) + more, rest)
    ensures ReadVector(c) == VectorStep(Completed, Some(v),
      c.(inbox := Prepend(more, rest), trace := c.trace + ReadEvents(v)))
  {
    var b := EncodeVector(v) + more;
    RecvFromHead(c, b, rest, FieldSize);
    assert b[..FieldSize] == EncodeU32(|v|);
    U32RoundTrip(|v|);
    var c1 := Recv(c, FieldSize).conn;
    var b1 := b[FieldSize..];
    assert b1 == EncodeI16s(v) + more;
    I16sRoundTrip(v);
    var need := 2 * |v|;
    if need == 0 {
      assert v == [];
      assert b1 == more;
    } else {
      RecvFromHead(c1, b1, rest, need);
      assert b1[..need] == EncodeI16s(v);
      assert b1[need..] == more;
      var c2 := Recv(c1, need).conn;
      assert ReadPayload(c2, 0) == Payload(Some([]), c2);
      assert EncodeI16s(v) + [] == EncodeI16s(v);
      assert ReadPayload(c1, need).data == Some(EncodeI16s(v));
    }
  }

  lemma ServeOneWhole(c: Conn, v: seq<Int16>, more: Bytes, rest: seq<Bytes>)
    requires |v| < 0x1_0000_0000
    requires c.inbox == Prepend(EncodeVector(v) + more, rest) && c.sendCaps == []
    ensures ServeOne(c) == VectorStep(Completed, Some(v),
      c.(inbox := Prepend(more, rest), trace := c.trace + VectorEvents(v), sent := c.sent + [EncodeI16(Clamped(v))]))
  {
    ReadVectorWhole(c, v, more, rest);
    assert c.trace + ReadEvents(v) + [Out(EncodeI16(Clamped(v)))] == c.trace + VectorEvents(v);
  }

  /** A first vector that is served in full is followed by the rest of the loop. */
  lemma ServeVectorsUnfold(c: Conn, remaining: nat, v: seq<Int16>, mid: Conn)
    requires remaining > 0 && ServeOne(c) == VectorStep(Completed, Some(v), mid)
    ensures var rest := ServeVectors(mid, remaining - 1);
      ServeVectors(c, remaining) == EngineResult(rest.stop, [v] + rest.vectors, [Clamped(v)] + rest.results, rest.conn)
  {
    assert ServeVectors(c, remaining) == Extend(c, v, mid, ServeVectors(mid, remaining - 1));
  }

  lemma {:induction false} ServeVectorsWhole(c: Conn, vs: seq<seq<Int16>>, rest: seq<Bytes>)
    requires Framable(vs)
    requires c.inbox == Prepend(EncodeVectors(vs), rest) && c.sendCaps == []
    ensures ServeVectors(c, |vs|) == EngineResult(Completed, vs, Sums(vs),
      c.(inbox := rest, trace := c.trace + ExchangeEvents(vs), sent := c.sent + EncodeResults(Sums(vs))))
    decreases |vs|
  {
    if |vs| > 0 {
      var v := vs[0];
      var tail := vs[1..];
      assert vs == [v] + tail;
      FramableTail(vs);
      var c1 := c.(inbox := Prepend(EncodeVectors(tail), rest), trace := c.trace + VectorEvents(v), sent := c.sent + [EncodeI16(Clamped(v))]);
      ServeVectorsWhole(c1, tail, rest);
      assert EncodeVectors(vs) == EncodeVector(v) + EncodeVectors(tail);
      WholeStep(c, v, tail, rest);
    } else {
      assert c.inbox == rest;
    }
  }

  /** One step of ServeVectorsWhole: the first vector, served in full, in front
      of a whole run on the others. */
  lemma WholeStep(c: Conn, v: seq<Int16>, tail: seq<seq<Int16>>, rest: seq<Bytes>)
    requires |v| < 0x1_0000_0000 && Framable(tail) && Framable([v] + tail)
    requires c.inbox == Prepend(EncodeVector(v) + EncodeVectors(tail), rest) && c.sendCaps == []
    requires var c1 := c.(inbox := Prepend(EncodeVectors(tail), rest), trace := c.trace + VectorEvents(v), sent := c.sent + [EncodeI16(Clamped(v))]);
      ServeVectors(c1, |tail|) == EngineResult(Completed, tail, Sums(tail),
        c1.(inbox := rest, trace := c1.trace + ExchangeEvents(tail), sent := c1.sent + EncodeResults(Sums(tail))))
    ensures ServeVectors(c, 1 + |tail|) == EngineResult(Completed, [v] + tail, Sums([v] + tail),
      c.(inbox := rest, trace := c.trace + ExchangeEvents([v] + tail), sent := c.sent + EncodeResults(Sums([v] + tail))))
  {
    var c1 := c.(inbox := Prepend(EncodeVectors(tail), rest), trace := c.trace + VectorEvents(v), sent := c.sent + [EncodeI16(Clamped(v))]);
    var r1 := ServeVectors(c1, |tail|);
    ServeOneWhole(c, v, EncodeVectors(tail), rest);
    ServeVectorsUnfold(c, 1 + |tail|, v, c1);
    Assemble(c, v, tail, rest, c1, r1, ServeVectors(c, 1 + |tail|));
  }

  /** The bookkeeping of one step of ServeVectorsWhole: the first vector's
      events and reply in front of those of the rest make up the whole. */
  lemma Assemble(c: Conn, v: seq<Int16>, tail: seq<seq<Int16>>, rest: seq<Bytes>, c1: Conn, r1: EngineResult, whole: EngineResult)
    requires |v| < 0x1_0000_0000 && Framable(tail) && Framable([v] + tail)
    requires c1 == c.(inbox := c1.inbox, trace := c.trace + VectorEvents(v), sent := c.sent + [EncodeI16(Clamped(v))])
    requires r1 == EngineResult(Completed, tail, Sums(tail),
      c1.(inbox := rest, trace := c1.trace + ExchangeEvents(tail), sent := c1.sent + EncodeResults(Sums(tail))))
    requires whole == EngineResult(r1.stop, [v] + r1.vectors, [Clamped(v)] + r1.results, r1.conn)
    ensures whole == EngineResult(Completed, [v] + tail, Sums([v] + tail),
      c.(inbox := rest, trace := c.trace + ExchangeEvents([v] + tail), sent := c.sent + EncodeResults(Sums([v] + tail))))
  {
    var vs := [v] + tail;
    assert vs[0] == v && vs[1..] == tail;
    assert r1.conn.trace == c.trace + ExchangeEvents(vs) by {
      assert ExchangeEvents(vs) == VectorEvents(v) + ExchangeEvents(tail);
      Appended(c.trace, VectorEvents(v), ExchangeEvents(tail), c1.trace, r1.conn.trace);
    }
    assert whole.results == Sums(vs);
    assert r1.conn.sent == c.sent + EncodeResults(Sums(vs)) by {
      ResultsCons(Clamped(v), Sums(tail));
      Appended(c.sent, [EncodeI16(Clamped(v))], EncodeResults(Sums(tail)), c1.sent, r1.conn.sent);
    }
  }

  /** A request that arrives whole is served completely: one result per vector,
      each the saturated sum of squares of its vector, each sent right after its
      vector's elements and before the next size is read; nothing after the
      request is read. */
  lemma WholeRequestServed(c: Conn, vs: seq<seq<Int16>>, rest: seq<Bytes>)
    requires Framable(vs) && |vs| < 0x1_0000_0000
    requires c.inbox == [EncodeRequest(vs)] + rest && c.sendCaps == []
    ensures var r := ProcessVectors(c);
      && r.stop == Completed
      && r.vectors == vs
      && r.results == Sums(vs)
      && r.conn.sent == c.sent + EncodeResults(Sums(vs))
      && r.conn.trace == c.trace + [In(EncodeU32(|vs|))] + ExchangeEvents(vs)
      && r.conn.inbox == rest
  {
    var b := EncodeRequest(vs);
    assert c.inbox == Prepend(b, rest);
    RecvFromHead(c, b, rest, FieldSize);
    assert b[..FieldSize] == EncodeU32(|vs|);
    assert b[FieldSize..] == EncodeVectors(vs);
    U32RoundTrip(|vs|);
    var c1 := Recv(c, FieldSize).conn;
    ServeVectorsWhole(c1, vs, rest);
  }

  /** The example exchange: one vector [1, 2, 3, 4] is answered with 30. */
  lemma OneVectorExample(c: Conn, rest: seq<Bytes>)
    requires c.inbox == [EncodeRequest([[1, 2, 3, 4]])] + rest && c.sendCaps == []
    ensures ProcessVectors(c).results == [30]
    ensures ProcessVectors(c).conn.sent == c.sent + [EncodeI16(30)]
  {
    var vs: seq<seq<Int16>> := [[1, 2, 3, 4]];
    assert Sums(vs) == [30] by {
      UnitTestCases();
    }
    assert EncodeResults([30]) == [EncodeI16(30)];
    WholeRequestServed(c, vs, rest);
  }

  /** A result send that the socket accepts only in part ends the exchange
      right after that vector: its reply was attempted, nothing more is read. */
  lemma ShortResultSendStops(c: Conn, remaining: nat, v: seq<Int16>, more: Bytes, rest: seq<Bytes>)
    requires remaining > 0 && |v| < 0x1_0000_0000
    requires c.inbox == Prepend(EncodeVector(v) + more, rest)
    requires c.sendCaps != [] && c.sendCaps[0] < 2
    ensures var r := ServeVectors(c, remaining);
      && r.stop == ResultSendFailed
      && r.vectors == [v] && r.results == [Clamped(v)]
      && r.conn.inbox == Prepend(more, rest)
      && r.conn.sent == c.sent + [EncodeI16(Clamped(v))]
  {
    ReadVectorWhole(c, v, more, rest);
    var step := ServeOne(c);
    assert step.vector == Some(v) && step.stop == ResultSendFailed;
    assert ServeVectors(c, remaining) == Halt(c, step);
  }

  /** A recv that returns 0 (the peer closed) before the elements are all in
      fails the payload read at once: the bytes already gathered are dropped and
      nothing after the close is read, even when more data would follow. */
  lemma PayloadStopsAtClose(c: Conn, need: nat, got: Bytes, rest: seq<Bytes>)
    requires |got| < need && c.inbox == Prepend(got, [[]] + rest)
    ensures var p := ReadPayload(c, need);
      && p.data.None?
      && p.conn.inbox == rest
      && p.conn.sent == c.sent
      && p.conn.trace == c.trace + (if got == [] then [] else [In(got)])
  {
    var r := Recv(c, need);
    if got == [] {
      assert r.data == [] && r.conn.inbox == rest;
    } else {
      assert r.data == got && r.conn.inbox == [[]] + rest;
      var r2 := Recv(r.conn, need - |got|);
      assert r2.data == [] && r2.conn.inbox == rest;
    }
  }

  /** A vector whose elements are cut short by a closed connection ends the
      exchange with that vector unanswered and nothing sent. */
  lemma PayloadCloseStops(c: Conn, remaining: nat, size: nat, got: Bytes, rest: seq<Bytes>)
    requires remaining > 0 && size < 0x1_0000_0000 && |got| < 2 * size
    requires c.inbox == [EncodeU32(size)] + Prepend(got, [[]] + rest)
    ensures var r := ServeVectors(c, remaining);
      && r.stop == PayloadReadFailed
      && r.vectors == [] && r.results == []
      && r.conn.sent == c.sent
      && r.conn.inbox == rest
  {
    var b := EncodeU32(size);
    assert c.inbox == Prepend(b, Prepend(got, [[]] + rest));
    RecvFromHead(c, b, Prepend(got, [[]] + rest), FieldSize);
    assert b[..FieldSize] == b && b[FieldSize..] == [];
    U32RoundTrip(size);
    var c1 := Recv(c, FieldSize).conn;
    PayloadStopsAtClose(c1, 2 * size, got, rest);
    var step := ReadVector(c);
    assert step.stop == PayloadReadFailed && step.vector.None? && step.conn.inbox == rest;
    assert ServeOne(c) == step;
    assert ServeVectors(c, remaining) == Halt(c, step);
  }

  /** The chunks of a client that sends each vector on its own, after it has
      read the reply to the one before. */
  function PerVector(vs: seq<seq<Int16>>): (chunks: seq<Bytes>)
    requires Framable(vs)
    ensures |chunks| == |vs|
  {
    if |vs| == 0 then [] else [EncodeVector(vs[0])] + PerVector(vs[1..])
  }

  /** A client that sends one vector per chunk, on a socket that accepts
      every send whole, is served to the end: every vector in order, each
      with its result, and nothing after the last vector is read. */
  /** A first vector served in full, followed by a run that completes on the
      rest, completes the whole run. */
  lemma ServedAfterFirst(c: Conn, n: nat, v: seq<Int16>, c1: Conn, tail: seq<seq<Int16>>)
    requires n > 0 && ServeOne(c) == VectorStep(Completed, Some(v), c1)
    requires c1.sent == c.sent + [EncodeI16(Clamped(v))]
    requires var r1 := ServeVectors(c1, n - 1);
      r1.stop == Completed && r1.vectors == tail && r1.results == Sums(tail)
    ensures var r := ServeVectors(c, n);
      && r.stop == Completed && r.vectors == [v] + tail && r.results == Sums([v] + tail)
      && r.conn == ServeVectors(c1, n - 1).conn
      && r.conn.sent == c.sent + EncodeResults(Sums([v] + tail))
  {
    var r1 := ServeVectors(c1, n - 1);
    ServeVectorsUnfold(c, n, v, c1);
    var vs := [v] + tail;
    assert vs[0] == v && vs[1..] == tail;
    assert [Clamped(v)] + Sums(tail) == Sums(vs);
    ResultsCons(Clamped(v), Sums(tail));
    Appended(c.sent, [EncodeI16(Clamped(v))], EncodeResults(Sums(tail)), c1.sent, r1.conn.sent);
  }

  lemma {:induction false} PerVectorServed(c: Conn, vs: seq<seq<Int16>>, rest: seq<Bytes>)
    requires Framable(vs)
    requires c.inbox == PerVector(vs) + rest && c.sendCaps == []
    ensures var r := ServeVectors(c, |vs|);
      && r.stop == Completed && r.vectors == vs && r.results == Sums(vs)
      && r.conn.inbox == rest
      && r.conn.sent == c.sent + EncodeResults(Sums(vs))
    decreases |vs|
  {
    if |vs| > 0 {
      var v := vs[0];
      var tail := vs[1..];
      assert vs == [v] + tail;
      FramableTail(vs);
      var later := PerVector(tail) + rest;
      assert c.inbox == Prepend(EncodeVector(v) + [], later) by {
        assert EncodeVector(v) + [] == EncodeVector(v);
        assert c.inbox == [EncodeVector(v)] + later;
      }
      var c1 := c.(inbox := later, trace := c.trace + VectorEvents(v), sent := c.sent + [EncodeI16(Clamped(v))]);
      assert ServeOne(c) == VectorStep(Completed, Some(v), c1) by {
        ServeOneWhole(c, v, [], later);
      }
      PerVectorServed(c1, tail, rest);
      ServedAfterFirst(c, |vs|, v, c1, tail);
    } else {
      assert c.inbox == rest;
    }
  }

  /** The same client from the start: the count in a chunk of its own, then
      one chunk per vector. */
  lemma PerVectorRequestServed(c: Conn, vs: seq<seq<Int16>>, later: seq<Bytes>, rest: seq<Bytes>)
    requires Framable(vs) && |vs| < 0x1_0000_0000
    requires later == PerVector(vs) + rest
    requires c.inbox == [EncodeU32(|vs|)] + later && c.sendCaps == []
    ensures var r := ProcessVectors(c);
      && r.stop == Completed && r.vectors == vs && r.results == Sums(vs)
      && r.conn.inbox == rest
      && r.conn.sent == c.sent + EncodeResults(Sums(vs))
  {
    var c1 := c.(inbox := later, trace := c.trace + [In(EncodeU32(|vs|))]);
    CountAlone(c, |vs|, later);
    PerVectorServed(c1, vs, rest);
  }

  /** A count that arrives in a chunk of its own is read by one recv, and
      then that many vectors are served. */
  lemma CountAlone(c: Conn, count: nat, later: seq<Bytes>)
    requires count < 0x1_0000_0000
    requires c.inbox == [EncodeU32(count)] + later
    ensures ProcessVectors(c) == ServeVectors(c.(inbox := later, trace := c.trace + [In(EncodeU32(count))]), count)
  {
    var b := EncodeU32(count);
    assert c.inbox == Prepend(b, later);
    RecvFromHead(c, b, later, FieldSize);
    assert b[..FieldSize] == b;
    assert b[FieldSize..] == [];
    U32RoundTrip(count);
  }
}
